=== FILE: README.md ===
# git-report in Dafny

`git-report` is a command-line tool. It lists the recent commits of a git
repository and lets the operator choose a range, either by hash prefixes
given on the command line or by picking from a numbered list. It then writes
a text report of the commits in that range. The report is either a fixed
plain-text layout or the answer of a local language model, which is sent a
prompt that holds a "dossier" of the commits.

This project models the text-processing core of that pipeline, all of it in
`src/main.rs`:

- **`history.dfy`**: reading the history.
  - The `git log --pretty=format:%H|%an|%ad|%s` line format.
  - The per-commit details: the body, and the changed files from `git show`.
  - The loop that turns captured `git log` output into commits.
  - The loop is written once, as the specification function
    `ParseLines`, and once as the imperative `ReadHistory`, which is proved
    equal to it. In the source the same loop appears twice, in
    `get_commit_list` and in `get_commits_in_range`.
- **`resolve.dfy`**: choosing the two ends of the range.
  - First-match prefix search over hashes.
  - The labels of the selection list.
  - The order in which `from` and `to` are resolved.
- **`report.dfy`**: the plain report of `generate_report` and the commit
  dossier of `generate_ai_report`.
  - Each is specified as a list of lines: `ReportLines`, and
    `Concat(Blocks(Dossier, …))`.
  - Each is written by imperative methods that append to a string exactly
    as the source's `push_str` calls do. Those methods are proved to
    produce `Unlines` of the specified lines.
- **`report_facts.dfy`**: what the report promises.
  - The commit count in the header.
  - The numbered blocks, in order.
  - The conditional Description and Files Changed sections, and the same
    for the dossier.
  - That the written text splits back into exactly the specified lines.
- **`prompt.dfy`**: the prompt around the dossier.
- **`output_name.dfy`**: the output path, and the default file name
  `git-report[-ai]-{timestamp}.txt`.
- **`text.dfy`**: the Rust `str` operations the code relies on, with
  their Rust semantics:
  - `split` gives n + 1 pieces for n separators;
  - `lines` splits at "\n", drops the "\r" of "\r\n", and does not start
    an empty last line after a final terminator;
  - `trim` uses the Unicode White_Space set;
  - `join`, `starts_with`, and decimal formatting of a `usize`;
  - the byte slice `hash[..8]`, which needs a UTF-8 char boundary at
    byte 8.
- **`commits.dfy`** and **`wrappers.dfy`**: the commit record, the
  failures of a run, and `Option`/`Result`.

Everything outside the text is a parameter:

- the clock;
- RFC 3339 date parsing and chrono date formatting, as functions;
- the captured standard output of each `git` call, as a string or as
  `None` when the call could not be run or its output is not UTF-8. For
  the two `git log` calls, `None` also covers a non-zero exit status,
  which the source checks there (src/main.rs:71-73, 166-168);
- the operator's pick in the selection list, as an index or `None`.

Dates are an opaque `Instant`.

## Model

| member | source | states |
|---|---|---|
| History.ParseLogLine | src/main.rs:79-84 | The `split('|')` of one line and its four-field test: the first four bar-separated fields, or none when there are fewer than four. ShortLineDropped, LogLineFields and LogFieldsBarFree prove how it behaves |
| History.LogFieldsBarFree | src/main.rs:79-84 | No field read from a line holds a bar, so the subject stops at the next bar |
| History.ShortLineDropped | src/main.rs:79-80 | A log line yields no commit exactly when it holds fewer than three bars, that is, fewer than four fields; the empty line never does |
| History.ShortLineSkipped | src/main.rs:78-101 | A line with fewer than four fields anywhere in the output changes nothing: the lines around it give the same commits, or the same failure, as if it were absent |
| History.LogLineFields | src/main.rs:79-84 | A line built from four bar-free fields reads back as hash, author, date text and subject, whatever bar-separated text follows the subject |
| History.ParsedCommits | src/main.rs:76-103 | One commit per accepted line, in line order. Its hash, author and subject are that line's fields 0, 1 and 3. Its date is the parsed date, or else `now`. Its body and files come from that hash's details. The listing fails exactly when the detail query of some accepted line fails |
| History.ParseLinesAppend | src/main.rs:78-101 | Commits from earlier output come first and later lines only extend them. A failure in earlier lines ends the listing whatever follows, as the `?` does |
| History.ReadHistory | src/main.rs:171-198 | The push loop, the same one as at src/main.rs:76-103, returns exactly the listing `ParseHistory` specifies: a failed `git log` or a failed detail query is an error, otherwise the commits of the accepted lines |
| History.DateOrNow | src/main.rs:86-88 | A parsed date is used unchanged, and a date text that does not parse gives the fallback `now` |
| History.CommitDetails | src/main.rs:106-131 | `get_commit_details`: fails with `HistoryQueryFailed` exactly when either `git show` query fails. Otherwise it gives the body of the message (CommitBody, BodyAfterSubject) and the changed files (FilesChangedExactly) |
| History.BuildCommit | src/main.rs:81-99 | The commit built from one accepted line: its hash, author and subject fields, the parsed date or `now`, and that hash's details. It fails when the details do. BuiltCommit proves this |
| History.BuiltCommit | src/main.rs:81-99 | A commit is built exactly when the detail query succeeds. Its hash, author and subject are the line's fields, its date is the parsed date or `now`, and its body and files are that hash's details |
| History.ParseLines | src/main.rs:76-103 | The loop over the output lines: short lines are skipped, the others become commits, and the first failing detail query fails the listing. ParsedCommits, ParseLinesAppend and ShortLineSkipped prove how it behaves |
| History.ParseHistory | src/main.rs:61-103 | A failed `git log` call is `HistoryQueryFailed`. Otherwise the listing is the loop over the lines of its output |
| History.DateNeverRejects | src/main.rs:181-183 | The date parser never decides whether a line is listed. With any other parser the listing succeeds or fails alike and yields the same commits apart from their dates |
| History.CommitBody | src/main.rs:112-116 | A message of at most one line has an empty body |
| History.BodyAfterSubject | src/main.rs:112-116 | For a message "subject\nrest" without "\r", the body is `rest`, less one final "\n" if it has one |
| History.FilesChangedExactly | src/main.rs:123-128 | The changed files are exactly the output lines that are non-blank after trimming and do not start with "commit": every kept line is such a line, every occurrence of such a line is kept, once, and they keep their original order |
| Resolve.SelectionLabel | src/main.rs:143 | The label "{index + 1}. {hash[..8]} - {subject} ({day})", defined only when the hash can be cut at byte 8. ShortHashOfGitHash, ShortHashHasNoLabel and LabelsNumbered prove how it behaves |
| Resolve.FindByPrefix | src/main.rs:350 | The index found holds a hash starting with the reference, no earlier hash does, and none is found exactly when no hash starts with it |
| Resolve.ResolveReference | src/main.rs:349-351 | An explicit reference resolves to the first commit in list order whose hash has it as a case-sensitive prefix. It fails with `CommitNotFound(reference)` if and only if no hash has that prefix |
| Resolve.ResolveEndpoint | src/main.rs:349-361 | With a reference, the end is found by prefix. Without one, it is the commit picked in the list, and a missing pick is `SelectionAborted`. A resolved end is always one of the listed commits. The list branch requires every hash to be cut at byte 8, because `select_commit` builds every label (src/main.rs:140-144) before the pick and panics otherwise |
| Resolve.ResolveRange | src/main.rs:349-361 | `from` is resolved first and its failure ends the run, before the list for `to` is built, so only then must every hash be cut at byte 8. Otherwise a failing `to` gives its own error. The range exists exactly when both ends resolve. It is then the pair of the `from` end and the `to` end, in that order, and both are listed commits |
| Resolve.SelectionLabels | src/main.rs:140-144 | The selection list holds one label per commit, in list order, and label k is that of commit k numbered k + 1 |
| Resolve.LabelsNumbered | src/main.rs:143 | The digits before the first '.' of the k-th label read back as k + 1 |
| Resolve.LabelsDistinct | src/main.rs:140-144 | Labels of different positions in the list always differ |
| Resolve.ShortHashOfGitHash | src/main.rs:143 | For a hash whose first 8 chars are ASCII, as git's hexadecimal hashes are, the slice at byte 8 exists and the label shows exactly those 8 chars |
| Resolve.ShortHashHasNoLabel | src/main.rs:143 | A hash shorter than 8 bytes cannot be sliced at byte 8, so no label exists for it, where the source panics |
| Report.Blocks | src/main.rs:222 | There is one block per commit |
| Report.BlockOf | src/main.rs:222-223 | Block k is the block of `commits[k]`, numbered k + 1 |
| Report.GenerateReport | src/main.rs:201-246 | The report written equals the text of the specified lines: the header, then the numbered block of every commit, each line followed by "\n" |
| Report.WriteHeader | src/main.rs:204-220 | The header paragraphs, written in order: title banner, repository facts, summary, "Detailed Commits" banner |
| Report.PushBanner | src/main.rs:204-205 | Appends a title, its "================" rule and a blank line, and leaves the earlier text unchanged |
| Report.PushOverview | src/main.rs:206-209 | Appends the Repository, Generated, Commit Range and Total Commits lines and a blank line |
| Report.PushSummary | src/main.rs:211-217 | Appends the Summary paragraph: From and To with subject and hash, and the formatted date range |
| Report.PushPlainBlocks | src/main.rs:222-243 | The commit loop appends the blocks of all commits, numbered from 1, in list order |
| Report.PushPlainBlock | src/main.rs:222-243 | Appends one commit's block: the numbered head, the Description section, the Files Changed section and a blank line |
| Report.PushPlainHead | src/main.rs:223-226 | Appends "{n}. {subject}" and the Hash, Author and Date lines |
| Report.PushDescription | src/main.rs:228-233 | Appends the Description section of the body, which is nothing for a blank body |
| Report.PushFileList | src/main.rs:235-240 | Appends the Files Changed section, which is nothing when no file changed |
| Report.PushIndented | src/main.rs:230-232 | Appends each given line behind the prefix, one per line and in order |
| Report.BuildDossier | src/main.rs:250-267 | The dossier written equals the text of the specified entries, one per commit and numbered from 1 |
| Report.PushDossierEntries | src/main.rs:251-267 | The loop appends the entries of all commits in list order |
| Report.PushDossierEntry | src/main.rs:252-266 | Appends one entry: head, description, files and a blank line |
| Report.PushDossierHead | src/main.rs:252-256 | Appends "Commit {n}:" and the Hash, Author, Date and Subject lines |
| Report.PushDossierDescription | src/main.rs:257-259 | Appends "  Description: " with the trimmed body, only when the body is not blank |
| Report.PushDossierFiles | src/main.rs:260-265 | Appends the files heading and one "    - {file}" line per file, only when there are files |
| ReportFacts.TotalCommitsLine | src/main.rs:209 | The seventh report line is "Total Commits: " followed by decimal digits only, and those digits read back as the number of commits in the range |
| ReportFacts.NumberedBlock | src/main.rs:222-223 | Block i (1-based) sits in the report right after the 17 header lines and the blocks before it. It is the block of `commits[i - 1]` and opens with "{i}. {subject}" |
| ReportFacts.DescriptionIffBody | src/main.rs:228-233 | A commit's block holds a "   Description:" line if and only if its body is not blank after trimming |
| ReportFacts.FilesIffChanged | src/main.rs:235-240 | A commit's block holds a "   Files Changed:" line if and only if the commit changed files |
| ReportFacts.DescriptionSection | src/main.rs:228-233 | The Description section is empty for a blank body. Otherwise it is the heading followed by every line of the body behind five spaces, in order |
| ReportFacts.FilesSection | src/main.rs:235-240 | The Files Changed section is empty without files. Otherwise it is the heading followed by exactly one "     - {file}" line per file, in order |
| ReportFacts.PlainBlockLayout | src/main.rs:222-243 | A block is the heading, the Hash, Author and Date lines, the Description section, the Files Changed section and a closing blank line, in that order |
| ReportFacts.ReportReadsBack | src/main.rs:201-246 | When none of the written values contain a line break, the report text splits by `str::lines` into exactly the specified lines, so the facts about lines hold of the text |
| ReportFacts.DossierDescriptionIffBody | src/main.rs:257-259 | An entry holds "  Description: " with the trimmed body if and only if the body is not blank. No other line of the entry starts with "  Description: ": such a line is the sixth, right after the head |
| Resolve.FromFailsBeforeToList | src/main.rs:349-361 | An unmatched `from` reference gives `CommitNotFound(reference)` whatever the `to` side is, with no requirement on the hashes, because the `to` list is never built |
| ReportFacts.DossierEntryLayout | src/main.rs:251-267 | An entry is "Commit {n}:", the Hash, Author, Date and Subject lines, the description, the files and a blank line, in that order |
| ReportFacts.DossierFilesSection | src/main.rs:260-265 | The dossier's files are nothing without files. Otherwise they are a heading and one "    - {file}" line per file, in order |
| ReportFacts.NumberedEntry | src/main.rs:251-252 | Entry i (1-based) of the dossier is the entry of `commits[i - 1]`, and the line where it starts is "Commit {i}:" |
| Prompt.PromptText | src/main.rs:270-296 | The prompt begins with the fixed guidelines and ends with the dossier |
| Prompt.BuildPrompt | src/main.rs:249-296 | The prompt sent is the prompt text around the dossier of exactly the range's commits, counting those commits |
| Prompt.PromptEndsWithDossier | src/main.rs:285-295 | The prompt starts with the guidelines and ends with the dossier, and the dossier is empty exactly when the range has no commits |
| OutputName.DefaultReportName | src/main.rs:376-378 | The default name starts with "git-report-" and ends with ".txt" |
| OutputName.OutputPath | src/main.rs:375-379 | An explicit output path is used unchanged. Without one the default name is used |
| OutputName.ParseDefaultName | src/main.rs:376-378 | The kind of report and the timestamp read back from the default name |
| OutputName.DefaultNamesDistinct | src/main.rs:376-378 | Different kinds or different timestamps never give the same default name |
| OutputName.KindNeedsTimestampFormat | src/main.rs:376-378 | Without the digits-and-underscore timestamp format the kinds could collide: the plain name for "ai-" + t is the AI name for t |
| Text.Lines | src/main.rs:78 | Rust `str::lines`: splits at "\n", drops a "\r" right before it, and starts no empty last line after a final "\n". JoinLines and LinesOfUnlines prove how it behaves |
| Text.Join | src/main.rs:116 | Rust `join` of the pieces with the separator between them. JoinSplit, SplitJoin and JoinLines prove how it behaves |
| Text.Trim | src/main.rs:126 | Rust `trim`: drops leading and trailing White_Space. TrimSpec proves how it behaves |
| Text.Split | src/main.rs:79 | `split` on the bar gives one more piece than there are separators, even for "", and no piece holds a separator |
| Text.JoinSplit | src/main.rs:79 | Re-joining the pieces with the separator gives the line back, so splitting loses nothing |
| Text.SplitJoin | src/main.rs:79 | Splitting a join of separator-free pieces recovers the pieces |
| Text.JoinLines | src/main.rs:113-116 | Joining the lines of a text without "\r" with "\n" gives the text back, less one final "\n" |
| Text.LinesOfUnlines | src/main.rs:201-246 | Reading back, by `str::lines`, a text written line by line gives those lines |
| Text.TrimSpec | src/main.rs:126 | `trim` is empty exactly when the text is all whitespace. Otherwise it begins and ends with a non-whitespace char |
| Text.NatToStringValue | src/main.rs:209 | The decimal text of a number reads back as that number |
| Text.CharsInBytePrefix | src/main.rs:143 | The number of chars that make up exactly the first n bytes, or none when byte n is not a char boundary, where slicing panics |

## Left out

- The `git` subprocess calls and their exit-status checks (src/main.rs:43-58, 61-73, 107-121, 156-168) are process I/O. The model works on their captured standard output, given as parameters.
- `check_git_repository` is left out: the repository path is a parameter.
- The revision walk of `git log from..to` belongs to git. The range listing is modelled as the parse of whatever output that call gives.
- `get_commit_details` does not check the exit status of `git show`. The model has the same gap: only a call that could not be run, or output that is not UTF-8, is an error, and all such failures are one error kind.
- `clap` argument parsing, including the `--limit` default of 50 and the `--model` default, is left out (src/main.rs:14-31). So is the coloured console output; both are UI glue.
- The `dialoguer` selection widget and `Term::clear_screen` are an interactive terminal (src/main.rs:134-150). The operator's pick is an input: an index below the list length, or `None` for an abort.
- The HTTP request to Ollama, its timeout, the JSON payload with its floating-point options, and the handling of the answer are network I/O and async code (src/main.rs:299-334).
- The prompt's fixed instruction prose (src/main.rs:271-284) is the `guidelines` parameter of `Prompt.PromptText`.
- chrono RFC 3339 parsing, date formatting and `Utc::now()` are parameters; dates are opaque `Instant`s. Whether the parser accepts git's `--date=iso` text is therefore outside the model. `History.DateNeverRejects` shows that this can only change the dates, never which commits are listed.
- History.ParsedCommits: the fallback date is one `now` for the whole listing, while the source reads the clock again for each unparseable line.
- Report.GenerateReport: the "Generated:" time and the date format are parameters (`generated`, `formatTime`), not the clock.
- `File::create` and `write_all` are file I/O (src/main.rs:381-382). The model stops at the output path.
- ReportFacts.DossierDescriptionIffBody: there is no read-back lemma for the dossier text. A multi-line body puts its line breaks inside the single "  Description: " line, so the dossier's lines are not recovered by `str::lines`.
- ReportFacts.ReportReadsBack requires that no written value (repository path, hashes, authors, subjects, body lines, file names, formatted dates) contains "\n" or "\r". That is stronger than needed: a "\n" inside a value, or a "\r" at its end (right before the "\n" written after it), makes the text's lines differ from the written lines, but a "\r" elsewhere reads back unchanged. The lemma does not cover such values.
- OutputName.DefaultReportName: the timestamp is a parameter, the run's time formatted as `%Y%m%d_%H%M%S`.

=== FILE: commits.dfy ===
/** The data model of the report pipeline: a commit, and the failures of a run. */
module Commits {

  /**
   * A point in time, normalised to UTC. The model never looks inside it: it
   * is parsed, read from the clock and formatted only by collaborators that
   * the operations take as parameters.
   */
  datatype Instant = Instant(unixNanos: int)

  /** One commit as read from the repository; never changed once built. */
  datatype Commit = Commit(
    hash: string,
    author: string,
    date: Instant,
    subject: string,
    body: string,
    filesChanged: seq<string>)

  /** The failures a run can end with. */
  datatype Error =
    | HistoryQueryFailed           // a `git` call could not be run or gave non-UTF-8 output
    | CommitNotFound(reference: string)
    | SelectionAborted             // the operator left the selection list
}

=== FILE: history.dfy ===
/**
 * Reading the commit history: the `git log` line format, the per-commit
 * details, and the loop that turns captured `git log` output into commits.
 */
module History {
  import opened Wrappers
  import opened Text
  import opened Commits

  /**
   * What the history reader gets from outside the model: RFC 3339 parsing,
   * the clock, and the captured standard output of the two `git show` calls
   * per commit (None when the call could not be run or its output is not
   * UTF-8; their exit status is not looked at).
   */
  datatype Env = Env(
    parseRfc3339: string -> Option<Instant>,
    now: Instant,
    showMessage: string -> Option<string>,
    showFiles: string -> Option<string>)

  /** The four leading fields of a `%H|%an|%ad|%s` log line. */
  datatype LogFields = LogFields(hash: string, author: string, dateText: string, subject: string)

  /**
   * One log line split on `|`: its first four fields, or None when it has
   * fewer than four, that is fewer than three `|`. Fields after the fourth
   * are ignored.
   */
  function ParseLogLine(line: string): Option<LogFields>
  {
    var parts := Split(line, '|');
    if |parts| >= 4 then Some(LogFields(parts[0], parts[1], parts[2], parts[3])) else None
  }

  /** The fields read from a line hold no `|`: the subject ends at the next bar. */
  lemma LogFieldsBarFree(line: string)
    ensures ParseLogLine(line).Some? ==>
              var f := ParseLogLine(line).value;
              '|' !in f.hash && '|' !in f.author && '|' !in f.dateText && '|' !in f.subject
  {
  }

  /** A line is dropped exactly when it has fewer than three `|`; the empty line always is. */
  lemma ShortLineDropped(line: string)
    ensures ParseLogLine(line).None? <==> Count(line, '|') < 3
    ensures ParseLogLine("").None?
  {
    assert Split("", '|') == [""];
  }

  /**
   * A line built from four `|`-free fields reads back as those fields,
   * whatever further `|`-separated text follows the subject.
   */
  lemma LogLineFields(hash: string, author: string, dateText: string, subject: string, rest: string)
    requires '|' !in hash && '|' !in author && '|' !in dateText && '|' !in subject
    requires rest == [] || rest[0] == '|'
    ensures ParseLogLine(hash + "|" + author + "|" + dateText + "|" + subject + rest)
         == Some(LogFields(hash, author, dateText, subject))
  {
    var t3 := subject + rest;
    LineShape(hash, author, dateText, subject, rest);
    SplitThree(hash, author, dateText, t3);
    FirstPiece(subject, '|', rest);
  }

  /** The line regrouped as three fields, each followed by `|`, before the rest. */
  lemma LineShape(hash: string, author: string, dateText: string, subject: string, rest: string)
    ensures hash + "|" + author + "|" + dateText + "|" + subject + rest
         == hash + ['|'] + (author + ['|'] + (dateText + ['|'] + (subject + rest)))
  {
  }

  /** Three `|`-free fields, each followed by `|`, split off in order. */
  lemma SplitThree(a: string, b: string, c: string, t: string)
    requires '|' !in a && '|' !in b && '|' !in c
    ensures Split(a + ['|'] + (b + ['|'] + (c + ['|'] + t)), '|') == [a, b, c] + Split(t, '|')
  {
    var s3 := c + ['|'] + t;
    var s2 := b + ['|'] + s3;
    var s1 := a + ['|'] + s2;
    SplitAtFirst(c, '|', t);
    SplitAtFirst(b, '|', s3);
    SplitAtFirst(a, '|', s2);
    ConsThree(a, b, c, Split(s1, '|'), Split(s2, '|'), Split(s3, '|'), Split(t, '|'));
  }

  lemma ConsThree<T>(a: T, b: T, c: T, x: seq<T>, y: seq<T>, z: seq<T>, w: seq<T>)
    requires x == [a] + y && y == [b] + z && z == [c] + w
    ensures x == [a, b, c] + w
  {
  }

  lemma FirstPiece(x: string, sep: char, rest: string)
    requires sep !in x
    requires rest == [] || rest[0] == sep
    ensures Split(x + rest, sep)[0] == x
  {
    if rest == [] {
      assert x + rest == x;
    } else {
      assert x + rest == x + [sep] + rest[1..];
      SplitAtFirst(x, sep, rest[1..]);
    }
  }

  /** The fallback of an unparseable date: the current time. */
  function DateOrNow(parsed: Option<Instant>, now: Instant): (date: Instant)
    ensures parsed.Some? ==> date == parsed.value
    ensures parsed.None? ==> date == now
  {
    match parsed
    case Some(d) => d
    case None => now
  }

  /** The body of a commit: the lines of its message after the first, joined with "\n". */
  function CommitBody(message: string): (body: string)
    ensures |Lines(message)| <= 1 ==> body == ""
  {
    var ls := Lines(message);
    if ls == [] then "" else Join(ls[1..], "\n")
  }

  /**
   * The body of a message is the text after its subject line, less one final
   * "\n" (provided the text has no "\r").
   */
  lemma BodyAfterSubject(subject: string, rest: string)
    requires '\n' !in subject && '\r' !in rest
    ensures CommitBody(subject + "\n" + rest) + FinalNewline(rest) == rest
  {
    var m := subject + "\n" + rest;
    IndexOfUnique(m, '\n', |subject|);
    assert m[..|subject|] == subject && m[|subject| + 1..] == rest;
    assert Lines(m) == [StripCR(subject)] + Lines(rest);
    assert Lines(m)[1..] == Lines(rest);
    JoinLines(rest);
  }

  /** A line of `git show --name-only` output that names a changed file. */
  predicate IsFileLine(line: string)
  {
    Trim(line) != "" && !StartsWith(line, "commit")
  }

  function KeepFileLines(ls: seq<string>): seq<string>
  {
    if ls == [] then []
    else (if IsFileLine(ls[0]) then [ls[0]] else []) + KeepFileLines(ls[1..])
  }

  /** The changed files: the lines of the output that name a file, in order. */
  function FilesChanged(filesOutput: string): seq<string>
  {
    KeepFileLines(Lines(filesOutput))
  }

  lemma {:induction false} KeptAreFileLines(ls: seq<string>)
    ensures forall f :: f in KeepFileLines(ls) ==> IsFileLine(f)
  {
    if ls != [] {
      KeptAreFileLines(ls[1..]);
    }
  }

  lemma {:induction false} FileLinesAreKept(ls: seq<string>)
    ensures forall l :: l in ls && IsFileLine(l) ==> l in KeepFileLines(ls)
  {
    if ls != [] {
      FileLinesAreKept(ls[1..]);
      assert forall l :: l in ls ==> l == ls[0] || l in ls[1..];
    }
  }

  lemma {:induction false} KeptInOrder(ls: seq<string>)
    ensures IsSubsequence(KeepFileLines(ls), ls)
  {
    if ls != [] {
      KeptInOrder(ls[1..]);
      KeptAreFileLines(ls[1..]);
      var rest := KeepFileLines(ls[1..]);
      if IsFileLine(ls[0]) {
        assert ([ls[0]] + rest)[1..] == rest;
      } else {
        assert [] + rest == rest;
        SkipFirst(rest, ls);
      }
    }
  }

  /** The filter keeps every occurrence of a file line and no other line. */
  lemma {:induction false} KeptOccurrences(ls: seq<string>)
    ensures forall l :: multiset(KeepFileLines(ls))[l] == if IsFileLine(l) then multiset(ls)[l] else 0
  {
    if ls != [] {
      KeptOccurrences(ls[1..]);
      assert ls == [ls[0]] + ls[1..];
      assert multiset(ls) == multiset{ls[0]} + multiset(ls[1..]);
    }
  }

  lemma SkipFirst(a: seq<string>, b: seq<string>)
    requires b != [] && IsSubsequence(a, b[1..])
    requires a != [] ==> a[0] != b[0]
    ensures IsSubsequence(a, b)
  {
  }

  /**
   * The changed files are exactly the output lines that are not blank and do
   * not start with "commit", each occurrence kept, in their original order.
   */
  lemma FilesChangedExactly(filesOutput: string)
    ensures forall f :: f in FilesChanged(filesOutput) ==>
              f in Lines(filesOutput) && !IsBlank(f) && !StartsWith(f, "commit")
    ensures forall l :: l in Lines(filesOutput) && !IsBlank(l) && !StartsWith(l, "commit") ==>
              l in FilesChanged(filesOutput)
    ensures IsSubsequence(FilesChanged(filesOutput), Lines(filesOutput))
    ensures forall l :: multiset(FilesChanged(filesOutput))[l] ==
              if !IsBlank(l) && !StartsWith(l, "commit") then multiset(Lines(filesOutput))[l] else 0
  {
    var ls := Lines(filesOutput);
    KeptOccurrences(ls);
    KeptAreFileLines(ls);
    FileLinesAreKept(ls);
    KeptInOrder(ls);
    SubsequenceMembers(KeepFileLines(ls), ls);
    forall l ensures IsFileLine(l) <==> !IsBlank(l) && !StartsWith(l, "commit") {
      TrimSpec(l);
    }
  }

  lemma {:induction false} SubsequenceMembers(a: seq<string>, b: seq<string>)
    requires IsSubsequence(a, b)
    ensures forall x :: x in a ==> x in b
    decreases |b|
  {
    if a != [] && b != [] {
      if a[0] == b[0] {
        SubsequenceMembers(a[1..], b[1..]);
        assert forall x :: x in a ==> x == a[0] || x in a[1..];
      } else {
        SubsequenceMembers(a, b[1..]);
      }
    }
  }

  /** The detail shown for one commit: its body and changed files. */
  datatype Details = Details(body: string, filesChanged: seq<string>)

  /** `get_commit_details`: the body query first, then the files query; either failing fails both. */
  function CommitDetails(hash: string, env: Env): (r: Result<Details, Error>)
    ensures r.Err? <==> env.showMessage(hash).None? || env.showFiles(hash).None?
    ensures r.Err? ==> r.error == HistoryQueryFailed
  {
    match env.showMessage(hash)
    case None => Err(HistoryQueryFailed)
    case Some(message) =>
      match env.showFiles(hash)
      case None => Err(HistoryQueryFailed)
      case Some(files) => Ok(Details(CommitBody(message), FilesChanged(files)))
  }

  function BuildCommit(fields: LogFields, env: Env): Result<Commit, Error>
  {
    var date := DateOrNow(env.parseRfc3339(fields.dateText), env.now);
    match CommitDetails(fields.hash, env)
    case Err(e) => Err(e)
    case Ok(d) => Ok(Commit(fields.hash, fields.author, date, fields.subject, d.body, d.filesChanged))
  }

  /**
   * The history loop over the lines of `git log` output: lines with fewer
   * than four fields are skipped, every other line becomes a commit, and the
   * first failing detail query fails the whole listing.
   */
  function ParseLines(lines: seq<string>, env: Env): Result<seq<Commit>, Error>
  {
    if lines == [] then Ok([])
    else
      match ParseLines(lines[..|lines| - 1], env)
      case Err(e) => Err(e)
      case Ok(commits) =>
        match ParseLogLine(lines[|lines| - 1])
        case None => Ok(commits)
        case Some(fields) =>
          match BuildCommit(fields, env)
          case Err(e) => Err(e)
          case Ok(c) => Ok(commits + [c])
  }

  /** The fields of the lines the loop accepts, in line order. */
  function Accepted(lines: seq<string>): (fs: seq<LogFields>)
    ensures |fs| <= |lines|
  {
    if lines == [] then []
    else
      Accepted(lines[..|lines| - 1])
      + match ParseLogLine(lines[|lines| - 1])
        case None => []
        case Some(f) => [f]
  }

  /** The commits listed from captured `git log` output (None: the call failed). */
  function ParseHistory(logOutput: Option<string>, env: Env): (r: Result<seq<Commit>, Error>)
    ensures logOutput.None? ==> r == Err(HistoryQueryFailed)
  {
    match logOutput
    case None => Err(HistoryQueryFailed)
    case Some(text) => ParseLines(Lines(text), env)
  }

  /**
   * The loop yields one commit per accepted line, in order, whose hash,
   * author and subject are that line's fields and whose date is the parsed
   * date or else `now`; it fails exactly when a detail query of an accepted
   * line fails.
   */
  lemma ParsedCommits(lines: seq<string>, env: Env)
    ensures ParseLines(lines, env).Ok? <==>
              forall j :: 0 <= j < |Accepted(lines)| ==> CommitDetails(Accepted(lines)[j].hash, env).Ok?
    ensures ParseLines(lines, env).Ok? ==>
              var cs, fs := ParseLines(lines, env).value, Accepted(lines);
              |cs| == |fs| &&
              forall j :: 0 <= j < |fs| ==>
                cs[j].hash == fs[j].hash && cs[j].author == fs[j].author && cs[j].subject == fs[j].subject &&
                cs[j].date == DateOrNow(env.parseRfc3339(fs[j].dateText), env.now) &&
                CommitDetails(fs[j].hash, env) == Ok(Details(cs[j].body, cs[j].filesChanged))
  {
    ListingSucceeds(lines, env);
    ListedCommits(lines, env);
  }

  /** Every detail query of these accepted lines succeeds. */
  predicate DetailsAvailable(fs: seq<LogFields>, env: Env)
  {
    forall j :: 0 <= j < |fs| ==> CommitDetails(fs[j].hash, env).Ok?
  }

  /** The listing succeeds exactly when every accepted line's detail query does. */
  lemma {:induction false} ListingSucceeds(lines: seq<string>, env: Env)
    ensures ParseLines(lines, env).Ok? <==> DetailsAvailable(Accepted(lines), env)
  {
    if lines != [] {
      var init := lines[..|lines| - 1];
      ListingSucceeds(init, env);
      ListingStep(lines, env);
      var p := ParseLogLine(lines[|lines| - 1]);
      if p.Some? {
        DetailsAvailableSnoc(Accepted(init), p.value, env);
      }
    }
  }

  /** One more line: skipped, or one more detail query that must succeed. */
  lemma ListingStep(lines: seq<string>, env: Env)
    requires lines != []
    ensures var init, p := lines[..|lines| - 1], ParseLogLine(lines[|lines| - 1]);
            if p.None? then
              Accepted(lines) == Accepted(init) && ParseLines(lines, env).Ok? == ParseLines(init, env).Ok?
            else
              Accepted(lines) == Accepted(init) + [p.value] &&
              (ParseLines(lines, env).Ok? <==> ParseLines(init, env).Ok? && CommitDetails(p.value.hash, env).Ok?)
  {
    var p := ParseLogLine(lines[|lines| - 1]);
    if p.Some? {
      BuiltCommit(p.value, env);
    }
  }

  /** One more accepted line adds exactly its own detail query. */
  lemma DetailsAvailableSnoc(fs: seq<LogFields>, f: LogFields, env: Env)
    ensures DetailsAvailable(fs + [f], env) <==> DetailsAvailable(fs, env) && CommitDetails(f.hash, env).Ok?
  {
    assert forall j :: 0 <= j < |fs| ==> (fs + [f])[j] == fs[j];
    assert (fs + [f])[|fs|] == f;
  }

  /** A successful listing holds one commit per accepted line, built from that line. */
  lemma {:induction false} ListedCommits(lines: seq<string>, env: Env)
    ensures ParseLines(lines, env).Ok? ==>
              var cs, fs := ParseLines(lines, env).value, Accepted(lines);
              |cs| == |fs| &&
              forall j :: 0 <= j < |fs| ==>
                cs[j].hash == fs[j].hash && cs[j].author == fs[j].author && cs[j].subject == fs[j].subject &&
                cs[j].date == DateOrNow(env.parseRfc3339(fs[j].dateText), env.now) &&
                CommitDetails(fs[j].hash, env) == Ok(Details(cs[j].body, cs[j].filesChanged))
  {
    if lines != [] && ParseLines(lines, env).Ok? {
      var init := lines[..|lines| - 1];
      ListedCommits(init, env);
      var fs0, cs0 := Accepted(init), ParseLines(init, env).value;
      match ParseLogLine(lines[|lines| - 1])
      case None =>
        assert Accepted(lines) == fs0;
        assert ParseLines(lines, env).value == cs0;
      case Some(f) =>
        BuiltCommit(f, env);
        var c := BuildCommit(f, env).value;
        assert Accepted(lines) == fs0 + [f];
        assert ParseLines(lines, env).value == cs0 + [c];
    }
  }

  /** The commit of one accepted line: its fields, its date, and its details. */
  lemma BuiltCommit(f: LogFields, env: Env)
    ensures BuildCommit(f, env).Ok? <==> CommitDetails(f.hash, env).Ok?
    ensures BuildCommit(f, env).Ok? ==>
              var c := BuildCommit(f, env).value;
              c.hash == f.hash && c.author == f.author && c.subject == f.subject &&
              c.date == DateOrNow(env.parseRfc3339(f.dateText), env.now) &&
              CommitDetails(f.hash, env) == Ok(Details(c.body, c.filesChanged))
  {
  }

  /** Commits of earlier lines come first; a failure in earlier lines stands. */
  lemma {:induction false} ParseLinesAppend(a: seq<string>, b: seq<string>, env: Env)
    ensures ParseLines(a, env).Err? ==> ParseLines(a + b, env) == ParseLines(a, env)
    ensures ParseLines(a, env).Ok? ==>
              ParseLines(a + b, env) == match ParseLines(b, env)
                                        case Ok(cs) => Ok(ParseLines(a, env).value + cs)
                                        case Err(e) => Err(e)
    decreases |b|
  {
    if b == [] {
      assert a + b == a;
      if ParseLines(a, env).Ok? {
        assert ParseLines(a, env).value + [] == ParseLines(a, env).value;
      }
    } else {
      var init := b[..|b| - 1];
      assert (a + b)[..|a + b| - 1] == a + init;
      assert (a + b)[|a + b| - 1] == b[|b| - 1];
      ParseLinesAppend(a, init, env);
      if ParseLines(a, env).Ok? && ParseLines(init, env).Ok? {
        var x, y := ParseLines(a, env).value, ParseLines(init, env).value;
        assert forall c :: (x + y) + [c] == x + (y + [c]);
      }
    }
  }

  /** A line with fewer than four fields changes nothing: the lines around it are read as if it were absent. */
  lemma {:induction false} ShortLineSkipped(a: seq<string>, line: string, b: seq<string>, env: Env)
    requires Count(line, '|') < 3
    ensures ParseLines(a + [line] + b, env) == ParseLines(a + b, env)
    decreases |b|
  {
    ShortLineDropped(line);
    if b == [] {
      assert a + [line] + b == a + [line];
      assert (a + [line])[..|a|] == a;
      assert a + b == a;
    } else {
      var init := b[..|b| - 1];
      assert (a + [line] + b)[..|a + [line] + b| - 1] == a + [line] + init;
      assert (a + [line] + b)[|a + [line] + b| - 1] == b[|b| - 1];
      assert (a + b)[..|a + b| - 1] == a + init;
      assert (a + b)[|a + b| - 1] == b[|b| - 1];
      ShortLineSkipped(a, line, init, env);
    }
  }

  /**
   * The date parser never decides whether a line is listed: with any other
   * parser the listing succeeds or fails alike and yields the same commits
   * apart from their dates.
   */
  lemma DateNeverRejects(lines: seq<string>, env: Env, otherParser: string -> Option<Instant>)
    ensures var env' := env.(parseRfc3339 := otherParser);
      ParseLines(lines, env).Ok? == ParseLines(lines, env').Ok? &&
      (ParseLines(lines, env).Ok? ==>
        |ParseLines(lines, env).value| == |ParseLines(lines, env').value| &&
        forall j :: 0 <= j < |ParseLines(lines, env).value| ==>
          ParseLines(lines, env).value[j].(date := env.now) == ParseLines(lines, env').value[j].(date := env.now))
  {
    var env' := env.(parseRfc3339 := otherParser);
    ParsedCommits(lines, env);
    ParsedCommits(lines, env');
  }

  /** `get_commit_list` / `get_commits_in_range` after the `git log` call: the loop over its output. */
  method ReadHistory(logOutput: Option<string>, env: Env) returns (result: Result<seq<Commit>, Error>)
    ensures result == ParseHistory(logOutput, env)
  {
    if logOutput.None? {
      return Err(HistoryQueryFailed);
    }
    var lines := Lines(logOutput.value);
    var commits: seq<Commit> := [];
    var i := 0;
    while i < |lines|
      invariant 0 <= i <= |lines|
      invariant ParseLines(lines[..i], env) == Ok(commits)
      decreases |lines| - i
    {
      assert lines[..i + 1][..i] == lines[..i];
      match ParseLogLine(lines[i]) {
        case None =>
        case Some(fields) =>
          var date := DateOrNow(env.parseRfc3339(fields.dateText), env.now);
          var details := CommitDetails(fields.hash, env);
          if details.Err? {
            ParseLinesAppend(lines[..i + 1], lines[i + 1..], env);
            assert lines[..i + 1] + lines[i + 1..] == lines;
            return Err(details.error);
          }
          commits := commits + [Commit(fields.hash, fields.author, date, fields.subject,
                                       details.value.body, details.value.filesChanged)];
      }
      i := i + 1;
    }
    assert lines[..i] == lines;
    result := Ok(commits);
  }
}

=== FILE: output_name.dfy ===
/**
 * Where the report is saved: the path given on the command line, or a name
 * built from the kind of report and the time of the run.
 */
module OutputName {
  import opened Wrappers
  import opened Text

  /** "git-report[-ai]-{timestamp}.txt"; `timestamp` is the run's time formatted as %Y%m%d_%H%M%S. */
  function DefaultReportName(ai: bool, timestamp: string): (name: string)
    ensures StartsWith(name, "git-report-")
    ensures |name| >= 15 && name[|name| - 4..] == ".txt"
  {
    var suffix := if ai then "-ai" else "";
    var name := "git-report" + suffix + "-" + timestamp + ".txt";
    assert name[..11] == "git-report-" by {
      if ai {
        assert name[..11] == ("git-report" + "-ai")[..11];
      }
    }
    name
  }

  /** An explicit output path wins; otherwise the default name. */
  function OutputPath(output: Option<string>, ai: bool, timestamp: string): (path: string)
    ensures output.Some? ==> path == output.value
    ensures output.None? ==> path == DefaultReportName(ai, timestamp)
  {
    match output
    case Some(p) => p
    case None => DefaultReportName(ai, timestamp)
  }

  /**
   * Reads a default name back into its kind and timestamp: a name carrying
   * "-ai" right after "git-report" is taken as an AI report.
   */
  function ParseReportName(name: string): Option<(bool, string)>
  {
    if |name| < 15 || !StartsWith(name, "git-report-") || name[|name| - 4..] != ".txt" then None
    else
      var middle := name[11..|name| - 4];
      if StartsWith(middle, "ai-") then Some((true, middle[3..])) else Some((false, middle))
  }

  /** A timestamp as %Y%m%d_%H%M%S writes it: digits and underscores only. */
  predicate IsTimestamp(timestamp: string)
  {
    forall i :: 0 <= i < |timestamp| ==> IsDigit(timestamp[i]) || timestamp[i] == '_'
  }

  /** The kind and the timestamp read back from the default name. */
  lemma ParseDefaultName(ai: bool, timestamp: string)
    requires IsTimestamp(timestamp)
    ensures ParseReportName(DefaultReportName(ai, timestamp)) == Some((ai, timestamp))
  {
    var name := DefaultReportName(ai, timestamp);
    if ai {
      assert name == "git-report-" + ("ai-" + timestamp) + ".txt";
      assert name[11..|name| - 4] == "ai-" + timestamp;
      assert ("ai-" + timestamp)[3..] == timestamp;
    } else {
      assert name == "git-report-" + timestamp + ".txt";
      assert name[11..|name| - 4] == timestamp;
      if |timestamp| >= 3 {
        assert timestamp[0] != 'a';
      }
    }
  }

  /** Different kinds or different timestamps never share a default name. */
  lemma DefaultNamesDistinct(ai1: bool, t1: string, ai2: bool, t2: string)
    requires IsTimestamp(t1) && IsTimestamp(t2)
    requires (ai1, t1) != (ai2, t2)
    ensures DefaultReportName(ai1, t1) != DefaultReportName(ai2, t2)
  {
    ParseDefaultName(ai1, t1);
    ParseDefaultName(ai2, t2);
  }

  /**
   * Without the timestamp format, a plain report and an AI report can
   * collide: the plain name for "ai-" + t is the AI name for t.
   */
  lemma KindNeedsTimestampFormat(t: string)
    ensures DefaultReportName(false, "ai-" + t) == DefaultReportName(true, t)
  {
  }
}

=== FILE: prompt.dfy ===
/**
 * The text sent to the language model: fixed guidelines, the facts of the
 * range, and the commit dossier at the end.
 */
module Prompt {
  import opened Text
  import opened Commits
  import opened Report

  /**
   * The prompt of `generate_ai_report`. `guidelines` is its fixed
   * instruction prose, up to and including the blank line before
   * "Repository:"; `details` is the dossier.
   */
  function PromptText(guidelines: string, repoPath: string, from: Commit, to: Commit, count: nat,
                      generated: string, details: string): (prompt: string)
    ensures |guidelines| + |details| <= |prompt|
    ensures prompt[..|guidelines|] == guidelines
    ensures prompt[|prompt| - |details|..] == details
  {
    var facts := "Repository: " + repoPath + "\n"
                 + "Commit Range: " + from.hash + " -> " + to.hash + "\n"
                 + "Total Commits: " + NatToString(count) + "\n"
                 + "Generated: " + generated + "\n\n"
                 + "Commit Data:\n";
    assert (guidelines + facts + details)[..|guidelines|] == guidelines;
    guidelines + facts + details
  }

  /**
   * The part of `generate_ai_report` before the request: the dossier of the
   * range's commits, then the prompt around it, counting those commits.
   */
  method BuildPrompt(guidelines: string, repoPath: string, from: Commit, to: Commit,
                     commits: seq<Commit>, generated: string, formatTime: Instant -> string) returns (prompt: string)
    ensures prompt == PromptText(guidelines, repoPath, from, to, |commits|, generated,
                                 Unlines(Concat(Blocks(Dossier, commits, formatTime))))
  {
    var details := BuildDossier(commits, formatTime);
    prompt := PromptText(guidelines, repoPath, from, to, |commits|, generated, details);
  }

  /** The prompt starts with the guidelines and ends with the dossier, which is empty exactly when there are no commits. */
  lemma PromptEndsWithDossier(guidelines: string, repoPath: string, from: Commit, to: Commit,
                              commits: seq<Commit>, generated: string, formatTime: Instant -> string)
    ensures var details := Unlines(Concat(Blocks(Dossier, commits, formatTime)));
            var prompt := PromptText(guidelines, repoPath, from, to, |commits|, generated, details);
            StartsWith(prompt, guidelines)
            && prompt[|prompt| - |details|..] == details
            && (commits == [] <==> details == "")
  {
    var blocks := Blocks(Dossier, commits, formatTime);
    if commits != [] {
      var last := |commits| - 1;
      BlockOf(Dossier, commits, formatTime, last);
      ConcatSnoc(blocks, last);
      assert blocks[..last + 1] == blocks;
      assert DossierEntry(last + 1, commits[last], formatTime) != [];
    } else {
      assert blocks == [];
    }
  }
}

=== FILE: report.dfy ===
/**
 * The two texts built from a resolved range: the plain report, and the
 * commit dossier that the AI prompt carries. Both are a run of lines, each
 * pushed with its "\n", and both give every commit a numbered block.
 */
module Report {
  import opened Text
  import opened Commits

  /** Which per-commit block is written: the plain report's or the prompt dossier's. */
  datatype Layout = Plain | Dossier

  /** Every line of `ls`, in order, behind `prefix`. */
  function Indent(prefix: string, ls: seq<string>): (r: seq<string>)
    ensures |r| == |ls|
  {
    if ls == [] then [] else Indent(prefix, ls[..|ls| - 1]) + [prefix + ls[|ls| - 1]]
  }

  lemma IndentSnoc(prefix: string, ls: seq<string>, j: nat)
    requires j < |ls|
    ensures Indent(prefix, ls[..j + 1]) == Indent(prefix, ls[..j]) + [prefix + ls[j]]
  {
    assert ls[..j + 1][..j] == ls[..j];
  }

  /** The k-th indented line is the k-th line behind the prefix. */
  lemma {:induction false} IndentAt(prefix: string, ls: seq<string>, k: nat)
    requires k < |ls|
    ensures Indent(prefix, ls)[k] == prefix + ls[k]
    decreases |ls|
  {
    if k < |ls| - 1 {
      IndentAt(prefix, ls[..|ls| - 1], k);
    }
  }

  // ---------------------------------------------------------------------
  // the plain report

  function DescriptionLines(body: string): seq<string>
  {
    if Trim(body) == "" then [] else ["   Description:"] + Indent("     ", Lines(body))
  }

  function FileLines(files: seq<string>): seq<string>
  {
    if files == [] then [] else ["   Files Changed:"] + Indent("     - ", files)
  }

  function PlainHead(number: nat, c: Commit, formatTime: Instant -> string): seq<string>
  {
    [NatToString(number) + ". " + c.subject,
     "   Hash: " + c.hash,
     "   Author: " + c.author,
     "   Date: " + formatTime(c.date)]
  }

  /** The block of the `number`-th commit in the plain report. */
  function PlainBlock(number: nat, c: Commit, formatTime: Instant -> string): seq<string>
  {
    PlainHead(number, c, formatTime) + DescriptionLines(c.body) + FileLines(c.filesChanged) + [""]
  }

  // ---------------------------------------------------------------------
  // the dossier of the AI prompt

  function DossierHead(number: nat, c: Commit, formatTime: Instant -> string): seq<string>
  {
    ["Commit " + NatToString(number) + ":",
     "  Hash: " + c.hash,
     "  Author: " + c.author,
     "  Date: " + formatTime(c.date),
     "  Subject: " + c.subject]
  }

  function DossierDescription(body: string): seq<string>
  {
    if Trim(body) == "" then [] else ["  Description: " + Trim(body)]
  }

  function DossierFiles(files: seq<string>): seq<string>
  {
    if files == [] then [] else ["  Files Changed:"] + Indent("    - ", files)
  }

  /** The entry of the `number`-th commit in the dossier. */
  function DossierEntry(number: nat, c: Commit, formatTime: Instant -> string): seq<string>
  {
    DossierHead(number, c, formatTime) + DossierDescription(c.body) + DossierFiles(c.filesChanged) + [""]
  }

  // ---------------------------------------------------------------------
  // numbered blocks

  function Block(layout: Layout, number: nat, c: Commit, formatTime: Instant -> string): seq<string>
  {
    match layout
    case Plain => PlainBlock(number, c, formatTime)
    case Dossier => DossierEntry(number, c, formatTime)
  }

  /** One block per commit, numbered from 1 in the order of `commits`. */
  function Blocks(layout: Layout, commits: seq<Commit>, formatTime: Instant -> string): (bs: seq<seq<string>>)
    ensures |bs| == |commits|
  {
    if commits == [] then []
    else Blocks(layout, commits[..|commits| - 1], formatTime)
         + [Block(layout, |commits|, commits[|commits| - 1], formatTime)]
  }

  /** The k-th block (from 0) is the block of the k-th commit, numbered k + 1. */
  lemma {:induction false} BlockOf(layout: Layout, commits: seq<Commit>, formatTime: Instant -> string, k: nat)
    requires k < |commits|
    ensures Blocks(layout, commits, formatTime)[k] == Block(layout, k + 1, commits[k], formatTime)
    decreases |commits|
  {
    if k < |commits| - 1 {
      var init := commits[..|commits| - 1];
      BlockOf(layout, init, formatTime, k);
      assert init[k] == commits[k];
    }
  }

  /** The blocks one after another. */
  function Concat(blocks: seq<seq<string>>): seq<string>
  {
    if blocks == [] then [] else Concat(blocks[..|blocks| - 1]) + blocks[|blocks| - 1]
  }

  lemma ConcatSnoc(blocks: seq<seq<string>>, k: nat)
    requires k < |blocks|
    ensures Concat(blocks[..k + 1]) == Concat(blocks[..k]) + blocks[k]
  {
    assert blocks[..k + 1][..k] == blocks[..k];
  }

  lemma {:induction false} ConcatPrefix(blocks: seq<seq<string>>, k: nat)
    requires k <= |blocks|
    ensures |Concat(blocks[..k])| <= |Concat(blocks)|
    ensures Concat(blocks)[..|Concat(blocks[..k])|] == Concat(blocks[..k])
    decreases |blocks|
  {
    if k == |blocks| {
      assert blocks[..k] == blocks;
    } else {
      var init := blocks[..|blocks| - 1];
      assert init[..k] == blocks[..k];
      ConcatPrefix(init, k);
    }
  }

  /** The k-th block sits, whole, right after the blocks before it. */
  lemma ConcatAt(blocks: seq<seq<string>>, k: nat)
    requires k < |blocks|
    ensures |Concat(blocks[..k])| + |blocks[k]| <= |Concat(blocks)|
    ensures Concat(blocks)[|Concat(blocks[..k])|..|Concat(blocks[..k])| + |blocks[k]|] == blocks[k]
  {
    ConcatSnoc(blocks, k);
    ConcatPrefix(blocks, k + 1);
    var through := Concat(blocks[..k + 1]);
    assert Concat(blocks)[..|through|] == through;
  }

  // ---------------------------------------------------------------------
  // the whole plain report

  /** A heading underlined with a rule, then a blank line. */
  function Banner(title: string): seq<string>
  {
    [title, "================", ""]
  }

  function Overview(repoPath: string, generated: string, from: Commit, to: Commit, count: nat): seq<string>
  {
    ["Repository: " + repoPath,
     "Generated: " + generated,
     "Commit Range: " + from.hash + " -> " + to.hash,
     "Total Commits: " + NatToString(count),
     ""]
  }

  function Summary(from: Commit, to: Commit, formatTime: Instant -> string): seq<string>
  {
    ["Summary",
     "-------",
     "From: " + from.subject + " (" + from.hash + ")",
     "To: " + to.subject + " (" + to.hash + ")",
     "Date Range: " + formatTime(from.date) + " to " + formatTime(to.date),
     ""]
  }

  /** The 17 lines before the first commit. */
  function HeaderLines(repoPath: string, generated: string, from: Commit, to: Commit,
                       count: nat, formatTime: Instant -> string): seq<string>
  {
    Banner("Git Commit Report") + Overview(repoPath, generated, from, to, count)
      + Summary(from, to, formatTime) + Banner("Detailed Commits")
  }

  /** The lines of the plain report: the header, then one block per commit. */
  function ReportLines(repoPath: string, generated: string, from: Commit, to: Commit,
                       commits: seq<Commit>, formatTime: Instant -> string): seq<string>
  {
    HeaderLines(repoPath, generated, from, to, |commits|, formatTime) + Concat(Blocks(Plain, commits, formatTime))
  }

  function ReportText(repoPath: string, generated: string, from: Commit, to: Commit,
                      commits: seq<Commit>, formatTime: Instant -> string): string
  {
    Unlines(ReportLines(repoPath, generated, from, to, commits, formatTime))
  }

  // ---------------------------------------------------------------------
  // writing the plain report

  /**
   * `generate_report`: the header, then per commit its numbered block.
   * `generated` is the formatted time of the run.
   */
  method GenerateReport(repoPath: string, generated: string, from: Commit, to: Commit,
                        commits: seq<Commit>, formatTime: Instant -> string) returns (report: string)
    ensures report == ReportText(repoPath, generated, from, to, commits, formatTime)
  {
    report := WriteHeader(repoPath, generated, from, to, |commits|, formatTime);
    report := PushPlainBlocks(report, commits, formatTime);
    UnlinesAppend(HeaderLines(repoPath, generated, from, to, |commits|, formatTime),
                  Concat(Blocks(Plain, commits, formatTime)));
  }

  /** The loop of `generate_report` over the commits: the block of each, numbered from 1. */
  method PushPlainBlocks(text: string, commits: seq<Commit>, formatTime: Instant -> string) returns (r: string)
    ensures r == text + Unlines(Concat(Blocks(Plain, commits, formatTime)))
  {
    ghost var blocks := Blocks(Plain, commits, formatTime);
    r := text;
    var i := 0;
    while i < |commits|
      invariant 0 <= i <= |commits|
      invariant r == text + Unlines(Concat(blocks[..i]))
    {
      r := PushBlockAt(r, commits, formatTime, i);
      NextBlock(text, Plain, commits, formatTime, i);
      i := i + 1;
    }
    assert blocks[..i] == blocks;
  }

  /** The block of `commits[i]`, numbered i + 1. */
  method PushBlockAt(text: string, commits: seq<Commit>, formatTime: Instant -> string, i: nat) returns (r: string)
    requires i < |commits|
    ensures r == text + Unlines(Blocks(Plain, commits, formatTime)[i])
  {
    r := PushPlainBlock(text, i + 1, commits[i], formatTime);
    BlockOf(Plain, commits, formatTime, i);
  }

  /** The header of the report, paragraph by paragraph. */
  method WriteHeader(repoPath: string, generated: string, from: Commit, to: Commit,
                     count: nat, formatTime: Instant -> string) returns (report: string)
    ensures report == Unlines(HeaderLines(repoPath, generated, from, to, count, formatTime))
  {
    var title := PushBanner("", "Git Commit Report");
    var overview := PushOverview(title, repoPath, generated, from, to, count);
    var summary := PushSummary(overview, from, to, formatTime);
    report := PushBanner(summary, "Detailed Commits");
    UnlinesOfFour(Banner("Git Commit Report"), Overview(repoPath, generated, from, to, count),
                  Summary(from, to, formatTime), Banner("Detailed Commits"));
  }

  lemma UnlinesOfFour(a: seq<string>, b: seq<string>, c: seq<string>, d: seq<string>)
    ensures Unlines(a + b + c + d) == "" + Unlines(a) + Unlines(b) + Unlines(c) + Unlines(d)
  {
    UnlinesAppend(a, b);
    UnlinesAppend(a + b, c);
    UnlinesAppend(a + b + c, d);
    ChainOfFour(Unlines(a + b + c + d), Unlines(a + b + c), Unlines(a + b),
                Unlines(a), Unlines(b), Unlines(c), Unlines(d));
  }

  lemma ChainOfFour<T>(x4: seq<T>, x3: seq<T>, x2: seq<T>, a: seq<T>, b: seq<T>, c: seq<T>, d: seq<T>)
    requires x4 == x3 + d && x3 == x2 + c && x2 == a + b
    ensures x4 == [] + a + b + c + d
  {
  }

  method PushBanner(text: string, title: string) returns (r: string)
    ensures r == text + Unlines(Banner(title))
  {
    ghost var ls := Banner(title);
    r := text;
    assert r == text + Unlines(ls[..0]);
    Pushed(text, ls, 0);
    r := r + title + "\n";
    PushedWithBlank(text, ls, 1);
    r := r + "================" + "\n\n";
    assert ls[..3] == ls;
  }

  method PushOverview(text: string, repoPath: string, generated: string, from: Commit, to: Commit,
                      count: nat) returns (r: string)
    ensures r == text + Unlines(Overview(repoPath, generated, from, to, count))
  {
    ghost var ls := Overview(repoPath, generated, from, to, count);
    r := text;
    assert r == text + Unlines(ls[..0]);
    var line := "Repository: " + repoPath;
    Pushed(text, ls, 0);
    r := r + line + "\n";
    line := "Generated: " + generated;
    Pushed(text, ls, 1);
    r := r + line + "\n";
    line := "Commit Range: " + from.hash + " -> " + to.hash;
    Pushed(text, ls, 2);
    r := r + line + "\n";
    line := "Total Commits: " + NatToString(count);
    PushedWithBlank(text, ls, 3);
    r := r + line + "\n\n";
    assert ls[..5] == ls;
  }

  method PushSummary(text: string, from: Commit, to: Commit, formatTime: Instant -> string) returns (r: string)
    ensures r == text + Unlines(Summary(from, to, formatTime))
  {
    ghost var ls := Summary(from, to, formatTime);
    r := text;
    assert r == text + Unlines(ls[..0]);
    Pushed(text, ls, 0);
    r := r + "Summary" + "\n";
    Pushed(text, ls, 1);
    r := r + "-------" + "\n";
    var line := "From: " + from.subject + " (" + from.hash + ")";
    Pushed(text, ls, 2);
    r := r + line + "\n";
    line := "To: " + to.subject + " (" + to.hash + ")";
    Pushed(text, ls, 3);
    r := r + line + "\n";
    line := "Date Range: " + formatTime(from.date) + " to " + formatTime(to.date);
    PushedWithBlank(text, ls, 4);
    r := r + line + "\n\n";
    assert ls[..6] == ls;
  }

  /**
   * One commit of the report: its numbered head, its description when the
   * body is not blank, its files when there are any, and a blank line.
   */
  method PushPlainBlock(text: string, number: nat, c: Commit, formatTime: Instant -> string) returns (r: string)
    ensures r == text + Unlines(PlainBlock(number, c, formatTime))
  {
    ghost var head := PlainHead(number, c, formatTime);
    r := PushPlainHead(text, number, c, formatTime);
    r := PushDescription(r, c.body);
    Appended(text, head, DescriptionLines(c.body));
    r := PushFileList(r, c.filesChanged);
    Appended(text, head + DescriptionLines(c.body), FileLines(c.filesChanged));
    ghost var written := head + DescriptionLines(c.body) + FileLines(c.filesChanged);
    Pushed(text, written + [""], |written|);
    assert (written + [""])[..|written|] == written;
    r := r + "" + "\n";  // the closing blank line, as the empty line `Pushed` steps over
    assert written + [""] == PlainBlock(number, c, formatTime);
  }

  /** The description of the plain block: its heading, then each line of the body indented. */
  method PushDescription(text: string, body: string) returns (r: string)
    ensures r == text + Unlines(DescriptionLines(body))
  {
    r := text;
    if Trim(body) != "" {
      Pushed(text, ["   Description:"], 0);
      r := r + "   Description:" + "\n";
      assert r == text + Unlines(["   Description:"]);
      r := PushIndented(r, "     ", Lines(body));
      Appended(text, ["   Description:"], Indent("     ", Lines(body)));
    }
  }

  /** The file list of the plain block: its heading, then one indented entry per file. */
  method PushFileList(text: string, files: seq<string>) returns (r: string)
    ensures r == text + Unlines(FileLines(files))
  {
    r := text;
    if files != [] {
      Pushed(text, ["   Files Changed:"], 0);
      r := r + "   Files Changed:" + "\n";
      assert r == text + Unlines(["   Files Changed:"]);
      r := PushIndented(r, "     - ", files);
      Appended(text, ["   Files Changed:"], Indent("     - ", files));
    }
  }

  method PushPlainHead(text: string, number: nat, c: Commit, formatTime: Instant -> string) returns (r: string)
    ensures r == text + Unlines(PlainHead(number, c, formatTime))
  {
    ghost var ls := PlainHead(number, c, formatTime);
    r := text;
    assert r == text + Unlines(ls[..0]);
    var line := NatToString(number) + ". " + c.subject;
    Pushed(text, ls, 0);
    r := r + line + "\n";
    line := "   Hash: " + c.hash;
    Pushed(text, ls, 1);
    r := r + line + "\n";
    line := "   Author: " + c.author;
    Pushed(text, ls, 2);
    r := r + line + "\n";
    line := "   Date: " + formatTime(c.date);
    Pushed(text, ls, 3);
    r := r + line + "\n";
    assert ls[..4] == ls;
  }

  // ---------------------------------------------------------------------
  // writing the dossier

  /** The dossier of `generate_ai_report`, written into an empty text. */
  method BuildDossier(commits: seq<Commit>, formatTime: Instant -> string) returns (details: string)
    ensures details == Unlines(Concat(Blocks(Dossier, commits, formatTime)))
  {
    details := PushDossierEntries("", commits, formatTime);
    // the loop writes after a start text; here that text is empty
    assert "" + Unlines(Concat(Blocks(Dossier, commits, formatTime))) == Unlines(Concat(Blocks(Dossier, commits, formatTime)));
  }

  /** The commit loop of `generate_ai_report`: the entry of each commit, numbered from 1. */
  method PushDossierEntries(text: string, commits: seq<Commit>, formatTime: Instant -> string) returns (r: string)
    ensures r == text + Unlines(Concat(Blocks(Dossier, commits, formatTime)))
  {
    ghost var entries := Blocks(Dossier, commits, formatTime);
    r := text;
    var i := 0;
    while i < |commits|
      invariant 0 <= i <= |commits|
      invariant r == text + Unlines(Concat(entries[..i]))
    {
      r := PushEntryAt(r, commits, formatTime, i);
      NextBlock(text, Dossier, commits, formatTime, i);
      i := i + 1;
    }
    assert entries[..i] == entries;
  }

  /** The entry of `commits[i]`, numbered i + 1. */
  method PushEntryAt(text: string, commits: seq<Commit>, formatTime: Instant -> string, i: nat) returns (r: string)
    requires i < |commits|
    ensures r == text + Unlines(Blocks(Dossier, commits, formatTime)[i])
  {
    r := PushDossierEntry(text, i + 1, commits[i], formatTime);
    BlockOf(Dossier, commits, formatTime, i);
  }

  /** One commit of the dossier. */
  method PushDossierEntry(text: string, number: nat, c: Commit, formatTime: Instant -> string) returns (r: string)
    ensures r == text + Unlines(DossierEntry(number, c, formatTime))
  {
    ghost var head := DossierHead(number, c, formatTime);
    r := PushDossierHead(text, number, c, formatTime);
    r := PushDossierDescription(r, c.body);
    Appended(text, head, DossierDescription(c.body));
    r := PushDossierFiles(r, c.filesChanged);
    Appended(text, head + DossierDescription(c.body), DossierFiles(c.filesChanged));
    ghost var written := head + DossierDescription(c.body) + DossierFiles(c.filesChanged);
    Pushed(text, written + [""], |written|);
    assert (written + [""])[..|written|] == written;
    r := r + "" + "\n";  // the closing blank line, as the empty line `Pushed` steps over
    assert written + [""] == DossierEntry(number, c, formatTime);
  }

  method PushDossierHead(text: string, number: nat, c: Commit, formatTime: Instant -> string) returns (r: string)
    ensures r == text + Unlines(DossierHead(number, c, formatTime))
  {
    ghost var ls := DossierHead(number, c, formatTime);
    r := text;
    assert r == text + Unlines(ls[..0]);
    var line := "Commit " + NatToString(number) + ":";
    Pushed(text, ls, 0);
    r := r + line + "\n";
    line := "  Hash: " + c.hash;
    Pushed(text, ls, 1);
    r := r + line + "\n";
    line := "  Author: " + c.author;
    Pushed(text, ls, 2);
    r := r + line + "\n";
    line := "  Date: " + formatTime(c.date);
    Pushed(text, ls, 3);
    r := r + line + "\n";
    line := "  Subject: " + c.subject;
    Pushed(text, ls, 4);
    r := r + line + "\n";
    assert ls[..5] == ls;
  }

  method PushDossierDescription(text: string, body: string) returns (r: string)
    ensures r == text + Unlines(DossierDescription(body))
  {
    r := text;
    if Trim(body) != "" {
      var line := "  Description: " + Trim(body);
      Pushed(text, [line], 0);
      r := r + line + "\n";
      assert [line][..1] == [line];
    }
  }

  method PushDossierFiles(text: string, files: seq<string>) returns (r: string)
    ensures r == text + Unlines(DossierFiles(files))
  {
    r := text;
    if files != [] {
      Pushed(text, ["  Files Changed:"], 0);
      r := r + "  Files Changed:" + "\n";
      assert r == text + Unlines(["  Files Changed:"]);
      r := PushIndented(r, "    - ", files);
      Appended(text, ["  Files Changed:"], Indent("    - ", files));
    }
  }

  /** Every line of `ls` behind `prefix`, each followed by "\n", appended to `text`. */
  method PushIndented(text: string, prefix: string, ls: seq<string>) returns (r: string)
    ensures r == text + Unlines(Indent(prefix, ls))
  {
    r := text;
    var j := 0;
    while j < |ls|
      invariant 0 <= j <= |ls|
      invariant r == text + Unlines(Indent(prefix, ls[..j]))
    {
      var line := prefix + ls[j];
      IndentSnoc(prefix, ls, j);
      UnlinesSnoc(Indent(prefix, ls[..j]), line);
      r := r + line + "\n";
      j := j + 1;
    }
    assert ls[..j] == ls;
  }

  /** Writing block i + 1 after the first i blocks writes the first i + 1 blocks. */
  lemma NextBlock(text: string, layout: Layout, commits: seq<Commit>, formatTime: Instant -> string, i: nat)
    requires i < |commits|
    ensures var blocks := Blocks(layout, commits, formatTime);
            text + Unlines(Concat(blocks[..i])) + Unlines(blocks[i])
            == text + Unlines(Concat(blocks[..i + 1]))
  {
    var blocks := Blocks(layout, commits, formatTime);
    Appended(text, Concat(blocks[..i]), blocks[i]);
    ConcatSnoc(blocks, i);
  }

  /** Writing `a` and then `b` writes their lines one after another. */
  lemma Appended(text: string, a: seq<string>, b: seq<string>)
    ensures text + Unlines(a + b) == text + Unlines(a) + Unlines(b)
  {
    UnlinesAppend(a, b);
  }

  /** One push of the next line of `ls` together with the blank line after it. */
  lemma PushedWithBlank(text: string, ls: seq<string>, k: nat)
    requires k + 1 < |ls| && ls[k + 1] == ""
    ensures text + Unlines(ls[..k + 2]) == text + Unlines(ls[..k]) + ls[k] + "\n\n"
  {
    Pushed(text, ls, k);
    Pushed(text, ls, k + 1);
    ChainOfTwo(text + Unlines(ls[..k + 2]), text + Unlines(ls[..k + 1]), text + Unlines(ls[..k]), ls[k]);
  }

  lemma ChainOfTwo(x2: string, x1: string, x0: string, line: string)
    requires x2 == x1 + "" + "\n" && x1 == x0 + line + "\n"
    ensures x2 == x0 + line + "\n\n"
  {
  }

  /** The bookkeeping of one push of the next line of `ls` onto a text that starts with `text`. */
  lemma Pushed(text: string, ls: seq<string>, k: nat)
    requires k < |ls|
    ensures text + Unlines(ls[..k + 1]) == text + Unlines(ls[..k]) + ls[k] + "\n"
  {
    assert ls[..k + 1] == ls[..k] + [ls[k]];
    UnlinesSnoc(ls[..k], ls[k]);
  }
}

=== FILE: report_facts.dfy ===
/**
 * What the plain report and the dossier promise: where the count and each
 * numbered block sit, when the Description and Files Changed sections
 * appear, and that the text reads back as exactly its lines.
 */
module ReportFacts {
  import opened Text
  import opened Commits
  import opened Report

  /** Every line of `ls` is a one-line text. */
  predicate AllLineText(ls: seq<string>)
  {
    forall l :: l in ls ==> IsLineText(l)
  }

  /**
   * A commit none of whose printed fields can break a line: this is what
   * `git log --pretty` and `git show --name-only` give for ordinary commits.
   */
  predicate PrintableCommit(c: Commit, formatTime: Instant -> string)
  {
    IsLineText(c.hash) && IsLineText(c.author) && IsLineText(c.subject)
    && IsLineText(formatTime(c.date)) && '\r' !in c.body && AllLineText(c.filesChanged)
  }

  predicate PrintableCommits(commits: seq<Commit>, formatTime: Instant -> string)
  {
    forall k :: 0 <= k < |commits| ==> PrintableCommit(commits[k], formatTime)
  }

  // ---------------------------------------------------------------------
  // indented runs

  /** Each indented line starts with the prefix. */
  lemma {:induction false} IndentPrefixed(prefix: string, ls: seq<string>)
    ensures forall l :: l in Indent(prefix, ls) ==> StartsWith(l, prefix)
    decreases |ls|
  {
    if ls != [] {
      IndentPrefixed(prefix, ls[..|ls| - 1]);
    }
  }

  lemma {:induction false} IndentLineText(prefix: string, ls: seq<string>)
    requires IsLineText(prefix) && AllLineText(ls)
    ensures AllLineText(Indent(prefix, ls))
    decreases |ls|
  {
    if ls != [] {
      assert forall l :: l in ls[..|ls| - 1] ==> l in ls;
      IndentLineText(prefix, ls[..|ls| - 1]);
      assert ls[|ls| - 1] in ls;
    }
  }

  lemma DigitsAreLineText(n: nat)
    ensures IsLineText(NatToString(n))
  {
  }

  // ---------------------------------------------------------------------
  // the plain block

  /** The four head lines are neither section heading. */
  lemma HeadIsNoHeading(number: nat, c: Commit, formatTime: Instant -> string)
    ensures "   Description:" !in PlainHead(number, c, formatTime)
    ensures "   Files Changed:" !in PlainHead(number, c, formatTime)
  {
    var d, f := "   Description:", "   Files Changed:";
    var head := PlainHead(number, c, formatTime);
    assert head[0][0] == NatToString(number)[0];
    assert head[1][3] != d[3] && head[1][3] != f[3];
    assert head[2][3] != d[3] && head[2][3] != f[3];
    assert head[3][4] != d[4] && head[3][3] != f[3];
  }

  /** A run of lines behind `prefix` holds no line that differs from the prefix within its length. */
  lemma IndentedIsNot(prefix: string, ls: seq<string>, x: string, i: nat)
    requires i < |prefix| && i < |x| && x[i] != prefix[i]
    ensures x !in Indent(prefix, ls)
  {
    IndentPrefixed(prefix, ls);
  }

  /** The block of a commit holds a Description section exactly when the body is not blank. */
  lemma DescriptionIffBody(number: nat, c: Commit, formatTime: Instant -> string)
    ensures "   Description:" in PlainBlock(number, c, formatTime) <==> Trim(c.body) != ""
  {
    var d := "   Description:";
    HeadIsNoHeading(number, c, formatTime);
    if Trim(c.body) == "" {
      IndentedIsNot("     - ", c.filesChanged, d, 3);
      assert d != "   Files Changed:" by { assert d[3] != "   Files Changed:"[3]; }
      assert d !in FileLines(c.filesChanged);
    } else {
      assert DescriptionLines(c.body)[0] == d;
    }
  }

  /** The block of a commit holds a Files Changed section exactly when it changed files. */
  lemma FilesIffChanged(number: nat, c: Commit, formatTime: Instant -> string)
    ensures "   Files Changed:" in PlainBlock(number, c, formatTime) <==> c.filesChanged != []
  {
    var f := "   Files Changed:";
    HeadIsNoHeading(number, c, formatTime);
    if c.filesChanged == [] {
      if Trim(c.body) != "" {
        DescriptionHasNoFiles(Lines(c.body));
      }
      assert f !in DescriptionLines(c.body);
    } else {
      assert FileLines(c.filesChanged)[0] == f;
    }
  }

  lemma DescriptionHasNoFiles(ls: seq<string>)
    ensures "   Files Changed:" !in ["   Description:"] + Indent("     ", ls)
  {
    var f := "   Files Changed:";
    IndentedIsNot("     ", ls, f, 3);
    assert f[3] != "   Description:"[3];
  }

  /** The Description section: nothing for a blank body, otherwise its heading and each body line behind five spaces. */
  lemma DescriptionSection(body: string)
    ensures Trim(body) == "" ==> DescriptionLines(body) == []
    ensures Trim(body) != "" ==>
              |DescriptionLines(body)| == 1 + |Lines(body)|
              && DescriptionLines(body)[0] == "   Description:"
              && forall k :: 0 <= k < |Lines(body)| ==> DescriptionLines(body)[1 + k] == "     " + Lines(body)[k]
  {
    if Trim(body) != "" {
      var ls := Lines(body);
      forall k | 0 <= k < |ls| ensures DescriptionLines(body)[1 + k] == "     " + ls[k] {
        IndentAt("     ", ls, k);
      }
    }
  }

  /** The Files Changed section: nothing without files, otherwise its heading and one "     - {file}" line per file, in order. */
  lemma FilesSection(files: seq<string>)
    ensures files == [] ==> FileLines(files) == []
    ensures files != [] ==>
              |FileLines(files)| == 1 + |files|
              && FileLines(files)[0] == "   Files Changed:"
              && forall k :: 0 <= k < |files| ==> FileLines(files)[1 + k] == "     - " + files[k]
  {
    forall k | 0 <= k < |files| ensures FileLines(files)[1 + k] == "     - " + files[k] {
      IndentAt("     - ", files, k);
    }
  }

  /**
   * The layout of a block: the heading "{number}. {subject}", the hash,
   * author and date lines, the Description section, the Files Changed
   * section, and a closing blank line.
   */
  lemma PlainBlockLayout(number: nat, c: Commit, formatTime: Instant -> string)
    ensures var block := PlainBlock(number, c, formatTime);
            var described := |DescriptionLines(c.body)|;
            |block| == 4 + described + |FileLines(c.filesChanged)| + 1
            && block[0] == NatToString(number) + ". " + c.subject
            && block[1] == "   Hash: " + c.hash
            && block[2] == "   Author: " + c.author
            && block[3] == "   Date: " + formatTime(c.date)
            && block[4..4 + described] == DescriptionLines(c.body)
            && block[4 + described..|block| - 1] == FileLines(c.filesChanged)
            && block[|block| - 1] == ""
  {
    var head := PlainHead(number, c, formatTime);
    var desc := DescriptionLines(c.body);
    var files := FileLines(c.filesChanged);
    var block := PlainBlock(number, c, formatTime);
    assert block == head + desc + files + [""];
    assert |head| == 4;
    assert block[4..4 + |desc|] == desc;
    assert block[4 + |desc|..|block| - 1] == files;
  }

  lemma PlainBlockLineText(number: nat, c: Commit, formatTime: Instant -> string)
    requires PrintableCommit(c, formatTime)
    ensures AllLineText(PlainBlock(number, c, formatTime))
  {
    DigitsAreLineText(number);
    var head := PlainHead(number, c, formatTime);
    assert AllLineText(head);
    DescriptionLineText(c.body);
    FileLinesLineText(c.filesChanged);
    var desc, files := DescriptionLines(c.body), FileLines(c.filesChanged);
    assert PlainBlock(number, c, formatTime) == head + desc + files + [""];
  }

  lemma DescriptionLineText(body: string)
    requires '\r' !in body
    ensures AllLineText(DescriptionLines(body))
  {
    if Trim(body) != "" {
      LinesAreLineText(body);
      SectionLineText("   Description:", "     ", Lines(body));
    }
  }

  lemma FileLinesLineText(files: seq<string>)
    requires AllLineText(files)
    ensures AllLineText(FileLines(files))
  {
    if files != [] {
      SectionLineText("   Files Changed:", "     - ", files);
    }
  }

  /** A section heading followed by indented one-line texts is all one-line texts. */
  lemma SectionLineText(heading: string, prefix: string, ls: seq<string>)
    requires IsLineText(heading) && IsLineText(prefix) && AllLineText(ls)
    ensures AllLineText([heading] + Indent(prefix, ls))
  {
    IndentLineText(prefix, ls);
  }

  // ---------------------------------------------------------------------
  // the whole report

  /** "Total Commits: n" is the seventh line, and n reads back as the number of commits. */
  lemma TotalCommitsLine(repoPath: string, generated: string, from: Commit, to: Commit,
                         commits: seq<Commit>, formatTime: Instant -> string)
    ensures var total := ReportLines(repoPath, generated, from, to, commits, formatTime)[6];
            StartsWith(total, "Total Commits: ")
            && DigitsValue(total[15..]) == |commits|
            && forall i :: 15 <= i < |total| ==> IsDigit(total[i])
  {
    var total := "Total Commits: " + NatToString(|commits|);
    var title := Banner("Git Commit Report");
    var overview := Overview(repoPath, generated, from, to, |commits|);
    var header := HeaderLines(repoPath, generated, from, to, |commits|, formatTime);
    assert header == title + overview + Summary(from, to, formatTime) + Banner("Detailed Commits");
    assert |title| == 3 && overview[3] == total;
    assert header[6] == total;
    assert |header| == 17;
    assert ReportLines(repoPath, generated, from, to, commits, formatTime)[6] == header[6];
    assert total[15..] == NatToString(|commits|);
    NatToStringValue(|commits|);
  }

  /**
   * After the 17 header lines and the blocks of the commits before it, the
   * report holds the i-th block (1-based): the plain block of
   * `commits[i - 1]`, headed "{i}. {subject}".
   */
  lemma NumberedBlock(repoPath: string, generated: string, from: Commit, to: Commit,
                      commits: seq<Commit>, formatTime: Instant -> string, i: nat)
    requires 1 <= i <= |commits|
    ensures var lines := ReportLines(repoPath, generated, from, to, commits, formatTime);
            var at := 17 + |Concat(Blocks(Plain, commits, formatTime)[..i - 1])|;
            var block := Blocks(Plain, commits, formatTime)[i - 1];
            at + |block| <= |lines|
            && lines[at..at + |block|] == block
            && block == PlainBlock(i, commits[i - 1], formatTime)
            && lines[at] == NumberedHeading(i, commits[i - 1])
  {
    BlockInReport(repoPath, generated, from, to, commits, formatTime, i);
    BlockOf(Plain, commits, formatTime, i - 1);
    var block := Blocks(Plain, commits, formatTime)[i - 1];
    assert block == PlainBlock(i, commits[i - 1], formatTime);
    PlainBlockLayout(i, commits[i - 1], formatTime);
    assert block[0] == NumberedHeading(i, commits[i - 1]);
  }

  lemma BlockInReport(repoPath: string, generated: string, from: Commit, to: Commit,
                      commits: seq<Commit>, formatTime: Instant -> string, i: nat)
    requires 1 <= i <= |commits|
    ensures var lines := ReportLines(repoPath, generated, from, to, commits, formatTime);
            var at := 17 + |Concat(Blocks(Plain, commits, formatTime)[..i - 1])|;
            var block := Blocks(Plain, commits, formatTime)[i - 1];
            at + |block| <= |lines|
            && lines[at..at + |block|] == block
  {
    BlockAfterHeader(repoPath, generated, from, to, commits, formatTime, Blocks(Plain, commits, formatTime), i);
  }

  /** Block i (1-based) of any run of blocks written after the header. */
  lemma BlockAfterHeader(repoPath: string, generated: string, from: Commit, to: Commit,
                         commits: seq<Commit>, formatTime: Instant -> string, blocks: seq<seq<string>>, i: nat)
    requires 1 <= i <= |blocks|
    ensures var lines := HeaderLines(repoPath, generated, from, to, |commits|, formatTime) + Concat(blocks);
            var at := 17 + |Concat(blocks[..i - 1])|;
            at + |blocks[i - 1]| <= |lines|
            && lines[at..at + |blocks[i - 1]|] == blocks[i - 1]
  {
    HeaderLength(repoPath, generated, from, to, |commits|, formatTime);
    BlockAfter(HeaderLines(repoPath, generated, from, to, |commits|, formatTime), blocks, i - 1);
  }

  /** Block k (from 0) sits after `head` and the blocks before it. */
  lemma BlockAfter(head: seq<string>, blocks: seq<seq<string>>, k: nat)
    requires k < |blocks|
    ensures var at := |head| + |Concat(blocks[..k])|;
            at + |blocks[k]| <= |head + Concat(blocks)|
            && (head + Concat(blocks))[at..at + |blocks[k]|] == blocks[k]
  {
    ConcatAt(blocks, k);
    ShiftSlice(head, Concat(blocks), |Concat(blocks[..k])|, |Concat(blocks[..k])| + |blocks[k]|);
  }

  /** The heading of the i-th block: "{i}. {subject}". */
  function NumberedHeading(i: nat, c: Commit): string
  {
    NatToString(i) + ". " + c.subject
  }

  lemma HeaderLength(repoPath: string, generated: string, from: Commit, to: Commit,
                     count: nat, formatTime: Instant -> string)
    ensures |HeaderLines(repoPath, generated, from, to, count, formatTime)| == 17
  {
  }

  /** A slice of the tail of `head + tail`, shifted past the head. */
  lemma ShiftSlice<T>(head: seq<T>, tail: seq<T>, lo: nat, hi: nat)
    requires lo <= hi <= |tail|
    ensures (head + tail)[|head| + lo..|head| + hi] == tail[lo..hi]
  {
  }

  lemma {:induction false} ConcatLineText(blocks: seq<seq<string>>)
    requires forall k :: 0 <= k < |blocks| ==> AllLineText(blocks[k])
    ensures AllLineText(Concat(blocks))
    decreases |blocks|
  {
    if blocks != [] {
      ConcatLineText(blocks[..|blocks| - 1]);
    }
  }

  lemma {:induction false} PlainBlocksLineText(commits: seq<Commit>, formatTime: Instant -> string)
    requires PrintableCommits(commits, formatTime)
    ensures AllLineText(Concat(Blocks(Plain, commits, formatTime)))
  {
    var blocks := Blocks(Plain, commits, formatTime);
    forall k | 0 <= k < |blocks| ensures AllLineText(blocks[k]) {
      BlockOf(Plain, commits, formatTime, k);
      PlainBlockLineText(k + 1, commits[k], formatTime);
    }
    ConcatLineText(blocks);
  }

  /**
   * The report text splits, by Rust's `str::lines`, back into exactly the
   * lines it was written from, so the facts above about lines are facts
   * about the text.
   */
  lemma ReportReadsBack(repoPath: string, generated: string, from: Commit, to: Commit,
                        commits: seq<Commit>, formatTime: Instant -> string)
    requires IsLineText(repoPath) && IsLineText(generated)
    requires PrintableCommit(from, formatTime) && PrintableCommit(to, formatTime)
    requires PrintableCommits(commits, formatTime)
    ensures Lines(ReportText(repoPath, generated, from, to, commits, formatTime))
            == ReportLines(repoPath, generated, from, to, commits, formatTime)
  {
    ReportLineText(repoPath, generated, from, to, commits, formatTime);
    LinesOfUnlines(ReportLines(repoPath, generated, from, to, commits, formatTime));
  }

  lemma ReportLineText(repoPath: string, generated: string, from: Commit, to: Commit,
                       commits: seq<Commit>, formatTime: Instant -> string)
    requires IsLineText(repoPath) && IsLineText(generated)
    requires PrintableCommit(from, formatTime) && PrintableCommit(to, formatTime)
    requires PrintableCommits(commits, formatTime)
    ensures AllLineText(ReportLines(repoPath, generated, from, to, commits, formatTime))
  {
    HeaderLineText(repoPath, generated, from, to, |commits|, formatTime);
    PlainBlocksLineText(commits, formatTime);
    var header := HeaderLines(repoPath, generated, from, to, |commits|, formatTime);
    var blocks := Concat(Blocks(Plain, commits, formatTime));
    assert ReportLines(repoPath, generated, from, to, commits, formatTime) == header + blocks;
  }

  lemma HeaderLineText(repoPath: string, generated: string, from: Commit, to: Commit,
                       count: nat, formatTime: Instant -> string)
    requires IsLineText(repoPath) && IsLineText(generated)
    requires PrintableCommit(from, formatTime) && PrintableCommit(to, formatTime)
    ensures AllLineText(HeaderLines(repoPath, generated, from, to, count, formatTime))
  {
    BannerLineText("Git Commit Report");
    OverviewLineText(repoPath, generated, from, to, count);
    SummaryLineText(from, to, formatTime);
    BannerLineText("Detailed Commits");
  }

  lemma BannerLineText(title: string)
    requires IsLineText(title)
    ensures AllLineText(Banner(title))
  {
    assert IsLineText("================");
  }

  lemma OverviewLineText(repoPath: string, generated: string, from: Commit, to: Commit, count: nat)
    requires IsLineText(repoPath) && IsLineText(generated) && IsLineText(from.hash) && IsLineText(to.hash)
    ensures AllLineText(Overview(repoPath, generated, from, to, count))
  {
    DigitsAreLineText(count);
    var ls := Overview(repoPath, generated, from, to, count);
    assert IsLineText(ls[0]) && IsLineText(ls[1]) && IsLineText(ls[2]) && IsLineText(ls[3]) && IsLineText(ls[4]);
  }

  lemma SummaryLineText(from: Commit, to: Commit, formatTime: Instant -> string)
    requires PrintableCommit(from, formatTime) && PrintableCommit(to, formatTime)
    ensures AllLineText(Summary(from, to, formatTime))
  {
    var ls := Summary(from, to, formatTime);
    assert IsLineText(ls[0]) && IsLineText(ls[1]) && IsLineText(ls[2]);
    assert IsLineText(ls[3]) && IsLineText(ls[4]) && IsLineText(ls[5]);
  }

  // ---------------------------------------------------------------------
  // the dossier

  /**
   * A dossier entry carries "  Description: " with the trimmed body exactly
   * when the body is not blank, and then no other line starting so.
   */
  lemma DossierDescriptionIffBody(number: nat, c: Commit, formatTime: Instant -> string)
    ensures "  Description: " + Trim(c.body) in DossierEntry(number, c, formatTime) <==> Trim(c.body) != ""
    ensures forall k :: (0 <= k < |DossierEntry(number, c, formatTime)| &&
                         StartsWith(DossierEntry(number, c, formatTime)[k], "  Description: "))
                        ==> k == 5 && Trim(c.body) != ""
  {
    if Trim(c.body) == "" {
      assert "  Description: " + Trim(c.body) == "  Description: ";
      DossierHeadIsNoDescription(number, c, formatTime);
      DossierFilesAreNoDescription(c.filesChanged);
    }
    OnlyDescriptionLine(number, c, formatTime);
  }

  /** Only the Description line of an entry starts with "  Description: ". */
  lemma OnlyDescriptionLine(number: nat, c: Commit, formatTime: Instant -> string)
    ensures forall k :: (0 <= k < |DossierEntry(number, c, formatTime)| &&
                         StartsWith(DossierEntry(number, c, formatTime)[k], "  Description: "))
                        ==> k == 5 && Trim(c.body) != ""
  {
    var head, desc, files := DossierHead(number, c, formatTime), DossierDescription(c.body), DossierFiles(c.filesChanged);
    var entry := DossierEntry(number, c, formatTime);
    HeadStartsNoDescription(number, c, formatTime);
    FilesStartNoDescription(c.filesChanged);
    assert !StartsWith("", "  Description: ");
    assert forall k :: 0 <= k < 5 ==> entry[k] == head[k];
    assert forall k :: 5 + |desc| <= k < 5 + |desc| + |files| ==> entry[k] == files[k - 5 - |desc|];
    assert entry[|entry| - 1] == "";
  }

  /** A line that differs from `p` at a position both have does not start with `p`. */
  lemma DiffersAt(l: string, p: string, i: nat)
    requires i < |l| && i < |p| && l[i] != p[i]
    ensures !StartsWith(l, p)
  {
    if |p| <= |l| {
      assert l[..|p|][i] == l[i];
    }
  }

  lemma HeadStartsNoDescription(number: nat, c: Commit, formatTime: Instant -> string)
    ensures forall k :: 0 <= k < |DossierHead(number, c, formatTime)| ==>
              !StartsWith(DossierHead(number, c, formatTime)[k], "  Description: ")
  {
    var d := "  Description: ";
    var head := DossierHead(number, c, formatTime);
    DiffersAt(head[0], d, 2);
    DiffersAt(head[1], d, 2);
    DiffersAt(head[2], d, 2);
    DiffersAt(head[3], d, 3);
    DiffersAt(head[4], d, 2);
  }

  lemma FilesStartNoDescription(files: seq<string>)
    ensures forall k :: 0 <= k < |DossierFiles(files)| ==> !StartsWith(DossierFiles(files)[k], "  Description: ")
  {
    var d := "  Description: ";
    if files != [] {
      var ls := DossierFiles(files);
      IndentPrefixed("    - ", files);
      DiffersAt(ls[0], d, 2);
      forall k | 1 <= k < |ls| ensures !StartsWith(ls[k], d) {
        var l := ls[k];
        assert l == Indent("    - ", files)[k - 1];
        assert l in Indent("    - ", files);
        assert l[..6] == "    - ";
        assert l[2] == l[..6][2];
        DiffersAt(l, d, 2);
      }
    }
  }

  lemma DossierHeadIsNoDescription(number: nat, c: Commit, formatTime: Instant -> string)
    ensures "  Description: " !in DossierHead(number, c, formatTime)
  {
    var d := "  Description: ";
    var head := DossierHead(number, c, formatTime);
    assert head[0][2] != d[2] && head[1][2] != d[2] && head[2][2] != d[2];
    assert head[3][3] != d[3] && head[4][2] != d[2];
  }

  lemma DossierFilesAreNoDescription(files: seq<string>)
    ensures "  Description: " !in DossierFiles(files)
  {
    if files != [] {
      IndentedIsNot("    - ", files, "  Description: ", 2);
      assert "  Description: "[2] != "  Files Changed:"[2];
    }
  }

  /**
   * The layout of a dossier entry: "Commit {number}:", the hash, author,
   * date and subject lines, the Description line, the files, and a
   * closing blank line.
   */
  lemma DossierEntryLayout(number: nat, c: Commit, formatTime: Instant -> string)
    ensures var entry := DossierEntry(number, c, formatTime);
            var described := |DossierDescription(c.body)|;
            |entry| == 5 + described + |DossierFiles(c.filesChanged)| + 1
            && entry[0] == "Commit " + NatToString(number) + ":"
            && entry[1] == "  Hash: " + c.hash
            && entry[2] == "  Author: " + c.author
            && entry[3] == "  Date: " + formatTime(c.date)
            && entry[4] == "  Subject: " + c.subject
            && entry[5..5 + described] == DossierDescription(c.body)
            && entry[5 + described..|entry| - 1] == DossierFiles(c.filesChanged)
            && entry[|entry| - 1] == ""
  {
    var head := DossierHead(number, c, formatTime);
    var desc := DossierDescription(c.body);
    var files := DossierFiles(c.filesChanged);
    var entry := DossierEntry(number, c, formatTime);
    assert entry == head + desc + files + [""];
    assert |head| == 5;
    assert entry[5..5 + |desc|] == desc;
    assert entry[5 + |desc|..|entry| - 1] == files;
  }

  /** The dossier's files: nothing without files, otherwise a heading and one "    - {file}" line per file, in order. */
  lemma DossierFilesSection(files: seq<string>)
    ensures files == [] ==> DossierFiles(files) == []
    ensures files != [] ==>
              |DossierFiles(files)| == 1 + |files|
              && DossierFiles(files)[0] == "  Files Changed:"
              && forall k :: 0 <= k < |files| ==> DossierFiles(files)[1 + k] == "    - " + files[k]
  {
    forall k | 0 <= k < |files| ensures DossierFiles(files)[1 + k] == "    - " + files[k] {
      IndentAt("    - ", files, k);
    }
  }

  /**
   * In the dossier, entry i (1-based) is the entry of `commits[i - 1]`, and
   * the line right after the entries before it is its heading "Commit i:".
   */
  lemma NumberedEntry(commits: seq<Commit>, formatTime: Instant -> string, i: nat)
    requires 1 <= i <= |commits|
    ensures Blocks(Dossier, commits, formatTime)[i - 1] == DossierEntry(i, commits[i - 1], formatTime)
    ensures |Concat(Blocks(Dossier, commits, formatTime)[..i - 1])| < |Concat(Blocks(Dossier, commits, formatTime))|
    ensures Concat(Blocks(Dossier, commits, formatTime))[|Concat(Blocks(Dossier, commits, formatTime)[..i - 1])|]
            == "Commit " + NatToString(i) + ":"
  {
    EntryInDossier(commits, formatTime, i - 1);
    BlockOf(Dossier, commits, formatTime, i - 1);
    var entry := Blocks(Dossier, commits, formatTime)[i - 1];
    assert entry == DossierEntry(i, commits[i - 1], formatTime);
    DossierEntryLayout(i, commits[i - 1], formatTime);
    assert entry[0] == "Commit " + NatToString(i) + ":";
  }

  /** Entry k (from 0) of the dossier sits, whole, after the entries before it. */
  lemma EntryInDossier(commits: seq<Commit>, formatTime: Instant -> string, k: nat)
    requires k < |commits|
    ensures |Concat(Blocks(Dossier, commits, formatTime)[..k])| + |Blocks(Dossier, commits, formatTime)[k]|
            <= |Concat(Blocks(Dossier, commits, formatTime))|
    ensures Concat(Blocks(Dossier, commits, formatTime))[|Concat(Blocks(Dossier, commits, formatTime)[..k])|
              ..|Concat(Blocks(Dossier, commits, formatTime)[..k])| + |Blocks(Dossier, commits, formatTime)[k]|]
            == Blocks(Dossier, commits, formatTime)[k]
  {
    ConcatAt(Blocks(Dossier, commits, formatTime), k);
  }
}

=== FILE: resolve.dfy ===
/**
 * Choosing the two ends of the report's range: by a hash prefix given on
 * the command line, or by the operator's pick from a numbered list.
 */
module Resolve {
  import opened Wrappers
  import opened Text
  import opened Commits

  /** Index of the first commit, in list order, whose hash starts with `reference`. */
  function FindByPrefix(commits: seq<Commit>, reference: string): (r: Option<nat>)
    ensures r.Some? ==> r.value < |commits| && StartsWith(commits[r.value].hash, reference)
    ensures r.Some? ==> forall j :: 0 <= j < r.value ==> !StartsWith(commits[j].hash, reference)
    ensures r.None? <==> forall j :: 0 <= j < |commits| ==> !StartsWith(commits[j].hash, reference)
  {
    if commits == [] then None
    else if StartsWith(commits[0].hash, reference) then Some(0)
    else
      match FindByPrefix(commits[1..], reference)
      case None => None
      case Some(k) => Some(k + 1)
  }

  /**
   * An explicit reference: the first listed commit whose hash has it as a
   * case-sensitive prefix; `CommitNotFound` exactly when no hash has.
   */
  function ResolveReference(commits: seq<Commit>, reference: string): (r: Result<Commit, Error>)
    ensures r.Err? <==> forall j :: 0 <= j < |commits| ==> !StartsWith(commits[j].hash, reference)
    ensures r.Err? ==> r.error == CommitNotFound(reference)
    ensures r.Ok? ==> exists k :: 0 <= k < |commits| && commits[k] == r.value
                        && StartsWith(commits[k].hash, reference)
                        && forall j :: 0 <= j < k ==> !StartsWith(commits[j].hash, reference)
  {
    match FindByPrefix(commits, reference)
    case None => Err(CommitNotFound(reference))
    case Some(k) => Ok(commits[k])
  }

  /**
   * The label for the commit at `index` in the selection list:
   * "{index + 1}. {first 8 bytes of the hash} - {subject} ({day})".
   * Slicing the hash at byte 8 needs a char boundary there.
   */
  function SelectionLabel(index: nat, c: Commit, formatDay: Instant -> string): string
    requires HasShortHash(c)
  {
    var shortHash := c.hash[..CharsInBytePrefix(c.hash, 8).value];
    NatToString(index + 1) + ". " + shortHash + " - " + c.subject + " (" + formatDay(c.date) + ")"
  }

  /** A hash that can be cut at byte 8: the precondition of a label. */
  predicate HasShortHash(c: Commit)
  {
    CharsInBytePrefix(c.hash, 8).Some?
  }

  /** The selection list: one label per commit, in list order. */
  function SelectionLabels(commits: seq<Commit>, formatDay: Instant -> string): (labels: seq<string>)
    requires forall k :: 0 <= k < |commits| ==> HasShortHash(commits[k])
    ensures |labels| == |commits|
    ensures forall k :: 0 <= k < |commits| ==> labels[k] == SelectionLabel(k, commits[k], formatDay)
  {
    seq(|commits|, k requires 0 <= k < |commits| => SelectionLabel(k, commits[k], formatDay))
  }

  /** The ordinal written at the head of a label: the digits before its first '.'. */
  function LabelOrdinal(entry: string): nat
  {
    var prefix := entry[..IndexOf(entry, '.')];
    if (forall i :: 0 <= i < |prefix| ==> IsDigit(prefix[i])) then DigitsValue(prefix) else 0
  }

  /**
   * Each label starts with its 1-based position in the list, so labels of
   * different entries always differ.
   */
  lemma {:induction false} LabelsNumbered(commits: seq<Commit>, formatDay: Instant -> string, k: nat)
    requires forall i :: 0 <= i < |commits| ==> HasShortHash(commits[i])
    requires k < |commits|
    ensures LabelOrdinal(SelectionLabels(commits, formatDay)[k]) == k + 1
  {
    var entry := SelectionLabels(commits, formatDay)[k];
    var digits := NatToString(k + 1);
    assert entry == digits + ". " + entry[|digits| + 2..];
    assert entry[|digits|] == '.';
    forall j | 0 <= j < |digits| ensures entry[j] != '.' {
      assert entry[j] == digits[j] && IsDigit(digits[j]);
    }
    IndexOfUnique(entry, '.', |digits|);
    assert entry[..|digits|] == digits;
    NatToStringValue(k + 1);
  }

  lemma LabelsDistinct(commits: seq<Commit>, formatDay: Instant -> string, i: nat, j: nat)
    requires forall k :: 0 <= k < |commits| ==> HasShortHash(commits[k])
    requires i < |commits| && j < |commits| && i != j
    ensures SelectionLabels(commits, formatDay)[i] != SelectionLabels(commits, formatDay)[j]
  {
    LabelsNumbered(commits, formatDay, i);
    LabelsNumbered(commits, formatDay, j);
  }

  /**
   * For a hash whose first 8 chars are ASCII, as git's hexadecimal hashes
   * are, the entry shows exactly those 8 chars.
   */
  lemma ShortHashOfGitHash(index: nat, c: Commit, formatDay: Instant -> string)
    requires |c.hash| >= 8 && forall i :: 0 <= i < 8 ==> c.hash[i] as int < 0x80
    ensures HasShortHash(c)
    ensures SelectionLabel(index, c, formatDay)
         == NatToString(index + 1) + ". " + c.hash[..8] + " - " + c.subject + " (" + formatDay(c.date) + ")"
  {
    AsciiBytePrefix(c.hash, 8);
  }

  /** A hash of fewer than 8 bytes cannot be cut at byte 8, so no entry exists for it. */
  lemma ShortHashHasNoLabel(c: Commit)
    requires Utf8Length(c.hash) < 8
    ensures !HasShortHash(c)
  {
    ShortTextHasNoBoundary(c.hash, 8);
  }

  /**
   * One end of the range: by prefix when a reference was given, otherwise
   * the commit the operator picked (None: the operator aborted). The pick is
   * made from the selection list, whose labels are all built first, so every
   * hash must be cut at byte 8 whether or not a pick follows.
   */
  function ResolveEndpoint(commits: seq<Commit>, reference: Option<string>, picked: Option<nat>): (r: Result<Commit, Error>)
    requires reference.None? ==> forall k :: 0 <= k < |commits| ==> HasShortHash(commits[k])
    requires reference.None? && picked.Some? ==> picked.value < |commits|
    ensures reference.Some? ==> r == ResolveReference(commits, reference.value)
    ensures reference.None? ==> (r.Err? <==> picked.None?)
    ensures reference.None? && r.Err? ==> r.error == SelectionAborted
    ensures reference.None? && r.Ok? ==> r.value == commits[picked.value]
    ensures r.Ok? ==> r.value in commits
  {
    match reference
    case Some(ref) => ResolveReference(commits, ref)
    case None =>
      match picked
      case None => Err(SelectionAborted)
      case Some(k) => Ok(commits[k])
  }

  /**
   * Both ends, `from` first: a failure of `from` ends the run before `to` is
   * asked for, so the selection list for `to` is only built, and its labels
   * only needed, once `from` has resolved. No order between them is
   * required, and both may be the same commit.
   */
  function ResolveRange(commits: seq<Commit>, fromRef: Option<string>, fromPick: Option<nat>,
                        toRef: Option<string>, toPick: Option<nat>): (r: Result<(Commit, Commit), Error>)
    requires fromRef.None? ==> forall k :: 0 <= k < |commits| ==> HasShortHash(commits[k])
    requires fromRef.None? && fromPick.Some? ==> fromPick.value < |commits|
    requires toRef.None? && ResolveEndpoint(commits, fromRef, fromPick).Ok? ==>
               forall k :: 0 <= k < |commits| ==> HasShortHash(commits[k])
    requires toRef.None? && toPick.Some? ==> toPick.value < |commits|
    ensures ResolveEndpoint(commits, fromRef, fromPick).Err? ==> r == Err(ResolveEndpoint(commits, fromRef, fromPick).error)
    ensures ResolveEndpoint(commits, fromRef, fromPick).Ok? && ResolveEndpoint(commits, toRef, toPick).Err? ==>
              r == Err(ResolveEndpoint(commits, toRef, toPick).error)
    ensures r.Ok? <==> ResolveEndpoint(commits, fromRef, fromPick).Ok? && ResolveEndpoint(commits, toRef, toPick).Ok?
    ensures r.Ok? ==> r.value == (ResolveEndpoint(commits, fromRef, fromPick).value,
                                  ResolveEndpoint(commits, toRef, toPick).value)
    ensures r.Ok? ==> r.value.0 in commits && r.value.1 in commits
  {
    match ResolveEndpoint(commits, fromRef, fromPick)
    case Err(e) => Err(e)
    case Ok(from) =>
      match ResolveEndpoint(commits, toRef, toPick)
      case Err(e) => Err(e)
      case Ok(to) => Ok((from, to))
  }

  /**
   * An unmatched `from` reference ends the run with `CommitNotFound`
   * whatever the `to` side is: the `to` list is never built, so no hash
   * needs to be cut at byte 8.
   */
  lemma FromFailsBeforeToList(commits: seq<Commit>, fromRef: string, toPick: Option<nat>)
    requires ResolveReference(commits, fromRef).Err?
    requires toPick.Some? ==> toPick.value < |commits|
    ensures ResolveRange(commits, Some(fromRef), None, None, toPick) == Err(CommitNotFound(fromRef))
  {
  }
}

=== FILE: text.dfy ===
/**
 * The Rust `str` operations the report pipeline relies on, stated over
 * `string` (a sequence of Unicode scalar values, as Rust's `char`).
 */
module Text {
  import opened Wrappers

  /** Index of the first `c` in `s`, or `|s|` when `s` has none. */
  function IndexOf(s: string, c: char): (i: nat)
    ensures i <= |s|
    ensures i < |s| ==> s[i] == c
    ensures forall j :: 0 <= j < i ==> s[j] != c
  {
    if s == [] then 0 else if s[0] == c then 0 else 1 + IndexOf(s[1..], c)
  }

  /** A position holding `c` with no `c` before it is the first `c`. */
  lemma {:induction false} IndexOfUnique(s: string, c: char, i: nat)
    requires i < |s| && s[i] == c
    requires forall j :: 0 <= j < i ==> s[j] != c
    ensures IndexOf(s, c) == i
  {
    if i > 0 {
      IndexOfUnique(s[1..], c, i - 1);
    }
  }

  /** Number of occurrences of `c` in `s`. */
  function Count(s: string, c: char): nat
  {
    if s == [] then 0 else (if s[0] == c then 1 else 0) + Count(s[1..], c)
  }

  /** `s.starts_with(p)`: a case-sensitive prefix test. */
  predicate StartsWith(s: string, p: string)
  {
    |p| <= |s| && s[..|p|] == p
  }

  /** `a` is `b` with some elements left out, the rest kept in order. */
  predicate IsSubsequence<T(==)>(a: seq<T>, b: seq<T>)
    decreases |b|
  {
    if a == [] then true
    else if b == [] then false
    else if a[0] == b[0] then IsSubsequence(a[1..], b[1..])
    else IsSubsequence(a, b[1..])
  }

  // ---------------------------------------------------------------------
  // split and join

  /**
   * `s.split(sep)` collected: the pieces between separators, in order.
   * n separators give n + 1 pieces, so even "" yields one (empty) piece.
   */
  function Split(s: string, sep: char): (parts: seq<string>)
    ensures |parts| == Count(s, sep) + 1
    ensures forall k :: 0 <= k < |parts| ==> sep !in parts[k]
    decreases |s|
  {
    var i := IndexOf(s, sep);
    if i == |s| then
      NoSepCount(s, sep);
      [s]
    else
      SplitCount(s, sep, i);
      [s[..i]] + Split(s[i + 1..], sep)
  }

  lemma {:induction false} NoSepCount(s: string, c: char)
    requires c !in s
    ensures Count(s, c) == 0
  {
    if s != [] {
      assert s[0] != c;
      NoSepCount(s[1..], c);
    }
  }

  lemma {:induction false} CountAppend(a: string, b: string, c: char)
    ensures Count(a + b, c) == Count(a, c) + Count(b, c)
  {
    if a == [] {
      assert a + b == b;
    } else {
      assert (a + b)[1..] == a[1..] + b;
      CountAppend(a[1..], b, c);
    }
  }

  lemma SplitCount(s: string, c: char, i: nat)
    requires i < |s| && s[i] == c && c !in s[..i]
    ensures Count(s, c) == Count(s[i + 1..], c) + 1
  {
    assert s == s[..i] + [c] + s[i + 1..];
    CountAppend(s[..i] + [c], s[i + 1..], c);
    CountAppend(s[..i], [c], c);
    NoSepCount(s[..i], c);
  }

  /** `parts.join(sep)`: the pieces with `sep` between neighbours. */
  function Join(parts: seq<string>, sep: string): string
  {
    if parts == [] then ""
    else if |parts| == 1 then parts[0]
    else parts[0] + sep + Join(parts[1..], sep)
  }

  /** Joining the pieces of a split with the separator gives the text back. */
  lemma {:induction false} JoinSplit(s: string, sep: char)
    ensures Join(Split(s, sep), [sep]) == s
    decreases |s|
  {
    var i := IndexOf(s, sep);
    if i == |s| {
      assert Split(s, sep) == [s];
    } else {
      var head, tail := s[..i], s[i + 1..];
      var rest := Split(tail, sep);
      assert Split(s, sep) == [head] + rest;
      JoinCons(head, rest, [sep]);
      JoinSplit(tail, sep);
      assert s == head + [sep] + tail;
    }
  }

  /** The first piece ends at the first separator. */
  lemma SplitAtFirst(x: string, sep: char, y: string)
    requires sep !in x
    ensures Split(x + [sep] + y, sep) == [x] + Split(y, sep)
  {
    var s := x + [sep] + y;
    IndexOfUnique(s, sep, |x|);
    assert s[..|x|] == x && s[|x| + 1..] == y;
  }

  /** Splitting a join of separator-free pieces recovers the pieces. */
  lemma {:induction false} SplitJoin(parts: seq<string>, sep: char)
    requires parts != []
    requires forall k :: 0 <= k < |parts| ==> sep !in parts[k]
    ensures Split(Join(parts, [sep]), sep) == parts
  {
    if |parts| == 1 {
      assert Join(parts, [sep]) == parts[0];
      assert Split(parts[0], sep) == [parts[0]];
    } else {
      var rest := Join(parts[1..], [sep]);
      assert Join(parts, [sep]) == parts[0] + [sep] + rest;
      SplitJoin(parts[1..], sep);
      SplitAtFirst(parts[0], sep, rest);
      assert parts == [parts[0]] + parts[1..];
    }
  }

  // ---------------------------------------------------------------------
  // lines

  /** A line terminator is "\n"; the "\r" of a "\r\n" pair is dropped too. */
  function StripCR(line: string): string
  {
    if line != [] && line[|line| - 1] == '\r' then line[..|line| - 1] else line
  }

  /**
   * `s.lines()` collected: the text split at each "\n", with a "\r" just
   * before the "\n" removed; a final line needs no terminator, and a
   * trailing terminator does not start an empty last line.
   */
  function Lines(s: string): seq<string>
    decreases |s|
  {
    if s == [] then []
    else
      var i := IndexOf(s, '\n');
      if i == |s| then [s] else [StripCR(s[..i])] + Lines(s[i + 1..])
  }

  /** Text that fits on one line: neither "\n" nor "\r" occurs in it. */
  predicate IsLineText(s: string)
  {
    '\n' !in s && '\r' !in s
  }

  lemma AppendAssoc<T>(a: seq<T>, b: seq<T>, c: seq<T>)
    ensures a + b + c == a + (b + c)
  {
  }

  /** Every line of the text followed by "\n": what a run of `push_str("…\n")` builds. */
  function Unlines(ls: seq<string>): string
  {
    if ls == [] then "" else Unlines(ls[..|ls| - 1]) + ls[|ls| - 1] + "\n"
  }

  /** A text written line by line is empty exactly when there are no lines, and otherwise ends with "\n". */
  lemma UnlinesEnds(ls: seq<string>)
    ensures ls == [] <==> Unlines(ls) == []
    ensures ls != [] ==> Unlines(ls)[|Unlines(ls)| - 1] == '\n'
  {
  }

  lemma UnlinesSnoc(ls: seq<string>, line: string)
    ensures Unlines(ls + [line]) == Unlines(ls) + line + "\n"
  {
    assert (ls + [line])[..|ls|] == ls;
  }

  lemma {:induction false} UnlinesAppend(a: seq<string>, b: seq<string>)
    ensures Unlines(a + b) == Unlines(a) + Unlines(b)
    decreases |b|
  {
    if b == [] {
      assert a + b == a;
    } else {
      var init := b[..|b| - 1];
      assert a + b == (a + init) + [b[|b| - 1]];
      assert b == init + [b[|b| - 1]];
      UnlinesSnoc(a + init, b[|b| - 1]);
      UnlinesSnoc(init, b[|b| - 1]);
      UnlinesAppend(a, init);
    }
  }

  lemma IndexOfAppend(a: string, b: string, c: char)
    requires IndexOf(a, c) < |a|
    ensures IndexOf(a + b, c) == IndexOf(a, c)
  {
    var i := IndexOf(a, c);
    IndexOfUnique(a + b, c, i);
  }

  /** Lines of a text that ends with a terminator do not run into what follows. */
  lemma {:induction false} LinesAppend(a: string, b: string)
    requires a == [] || a[|a| - 1] == '\n'
    ensures Lines(a + b) == Lines(a) + Lines(b)
    decreases |a|
  {
    if a == [] {
      assert a + b == b;
    } else {
      var i := IndexOf(a, '\n');
      IndexOfAppend(a, b, '\n');
      assert (a + b)[..i] == a[..i];
      assert (a + b)[i + 1..] == a[i + 1..] + b;
      LinesAppend(a[i + 1..], b);
    }
  }

  lemma LinesOfLine(line: string)
    requires IsLineText(line)
    ensures Lines(line + "\n") == [line]
  {
    var s := line + "\n";
    IndexOfUnique(s, '\n', |line|);
    assert s[..|line|] == line;
    assert s[|line| + 1..] == [];
  }

  /** Reading back the lines of a text built line by line gives those lines. */
  lemma {:induction false} LinesOfUnlines(ls: seq<string>)
    requires forall l :: l in ls ==> IsLineText(l)
    ensures Lines(Unlines(ls)) == ls
    decreases |ls|
  {
    if ls != [] {
      var init, last := ls[..|ls| - 1], ls[|ls| - 1];
      assert forall l :: l in init ==> l in ls;
      LinesOfUnlines(init);
      var u := Unlines(init);
      UnlinesEnds(init);
      AppendAssoc(u, last, "\n");
      LinesAppend(u, last + "\n");
      LinesOfLine(last);
      assert ls == init + [last];
    }
  }

  lemma {:induction false} LinesNonEmpty(s: string)
    ensures s != [] <==> Lines(s) != []
  {
  }

  lemma JoinCons(x: string, rest: seq<string>, sep: string)
    requires rest != []
    ensures Join([x] + rest, sep) == x + sep + Join(rest, sep)
  {
    assert ([x] + rest)[1..] == rest;
  }

  /** A one-line prefix of a text without "\r" needs no "\r" stripped. */
  lemma StripCRNoop(s: string, i: nat)
    requires '\r' !in s && i <= |s|
    ensures StripCR(s[..i]) == s[..i]
  {
    if i > 0 {
      assert s[..i][i - 1] == s[i - 1];
    }
  }

  /** The "\n" a text ends with, or "" when it ends otherwise. */
  function FinalNewline(s: string): string
  {
    if s != [] && s[|s| - 1] == '\n' then "\n" else ""
  }

  /**
   * Joining the lines of a text without "\r" with "\n" gives the text back,
   * less one final "\n".
   */
  lemma {:induction false} JoinLines(s: string)
    requires '\r' !in s
    ensures Join(Lines(s), "\n") + FinalNewline(s) == s
    decreases |s|
  {
    if s != [] {
      var i := IndexOf(s, '\n');
      if i == |s| {
        assert Lines(s) == [s];
        assert s[|s| - 1] != '\n';
      } else {
        var head, t := s[..i], s[i + 1..];
        LinesAtFirstBreak(s, i);
        if t != [] {
          LinesNonEmpty(t);
          JoinLines(t);
          var joined := Join(Lines(t), "\n");
          JoinCons(head, Lines(t), "\n");
          AppendAssoc(head + "\n", joined, FinalNewline(t));
        }
      }
    }
  }

  /** Around its first "\n", a text without "\r" is its first line and the lines of the rest. */
  lemma LinesAtFirstBreak(s: string, i: nat)
    requires '\r' !in s
    requires i < |s| && i == IndexOf(s, '\n')
    ensures s == s[..i] + "\n" + s[i + 1..]
    ensures Lines(s) == [s[..i]] + Lines(s[i + 1..])
    ensures '\r' !in s[i + 1..]
    ensures s[i + 1..] != [] ==> FinalNewline(s) == FinalNewline(s[i + 1..])
    ensures s[i + 1..] == [] ==> FinalNewline(s) == "\n"
  {
    StripCRNoop(s, i);
    SplitAround(s, i);
    NotInSuffix(s, '\r', i + 1);
  }

  lemma SplitAround<T>(s: seq<T>, i: nat)
    requires i < |s|
    ensures s == s[..i] + [s[i]] + s[i + 1..]
  {
  }

  lemma NotInSuffix<T>(s: seq<T>, x: T, k: nat)
    requires x !in s && k <= |s|
    ensures x !in s[k..]
  {
    assert forall j :: 0 <= j < |s| - k ==> s[k..][j] == s[k + j];
  }

  /** The lines of a text without "\r" are one-line texts. */
  lemma {:induction false} LinesAreLineText(s: string)
    requires '\r' !in s
    ensures forall l :: l in Lines(s) ==> IsLineText(l)
    decreases |s|
  {
    if s != [] {
      var i := IndexOf(s, '\n');
      if i == |s| {
        assert IsLineText(s);
      } else {
        StripCRNoop(s, i);
        assert forall c :: c in s[..i] ==> c in s;
        assert forall c :: c in s[i + 1..] ==> c in s;
        LinesAreLineText(s[i + 1..]);
      }
    }
  }

  // ---------------------------------------------------------------------
  // trim

  /** `char::is_whitespace`: the Unicode White_Space property. */
  predicate IsWhitespace(c: char)
  {
    var n := c as int;
    (0x09 <= n <= 0x0D) || n == 0x20 || n == 0x85 || n == 0xA0 || n == 0x1680
    || (0x2000 <= n <= 0x200A) || n == 0x2028 || n == 0x2029 || n == 0x202F
    || n == 0x205F || n == 0x3000
  }

  predicate IsBlank(s: string)
  {
    forall i :: 0 <= i < |s| ==> IsWhitespace(s[i])
  }

  /** `s.trim_start()`: the suffix left after dropping the leading whitespace. */
  function TrimStart(s: string): string
  {
    if s != [] && IsWhitespace(s[0]) then TrimStart(s[1..]) else s
  }

  /** `s.trim_end()`: the prefix left after dropping the trailing whitespace. */
  function TrimEnd(s: string): string
  {
    if s != [] && IsWhitespace(s[|s| - 1]) then TrimEnd(s[..|s| - 1]) else s
  }

  /** `s.trim()`: both ends trimmed. */
  function Trim(s: string): string
  {
    TrimEnd(TrimStart(s))
  }

  /** `trim_start` drops exactly the leading run of whitespace. */
  lemma {:induction false} TrimStartSpec(s: string)
    ensures var r := TrimStart(s);
            |r| <= |s| && r == s[|s| - |r|..]
            && (forall i :: 0 <= i < |s| - |r| ==> IsWhitespace(s[i]))
            && (r != [] ==> !IsWhitespace(r[0]))
    decreases |s|
  {
    if s != [] && IsWhitespace(s[0]) {
      TrimStartSpec(s[1..]);
    }
  }

  /** `trim_end` drops exactly the trailing run of whitespace. */
  lemma {:induction false} TrimEndSpec(s: string)
    ensures var r := TrimEnd(s);
            |r| <= |s| && r == s[..|r|]
            && (forall i :: |r| <= i < |s| ==> IsWhitespace(s[i]))
            && (r != [] ==> !IsWhitespace(r[|r| - 1]))
    decreases |s|
  {
    if s != [] && IsWhitespace(s[|s| - 1]) {
      TrimEndSpec(s[..|s| - 1]);
    }
  }

  /**
   * `s.trim()` is empty exactly when `s` is all whitespace, and otherwise
   * begins and ends with a character that is not whitespace.
   */
  lemma TrimSpec(s: string)
    ensures Trim(s) == [] <==> IsBlank(s)
    ensures Trim(s) != [] ==> !IsWhitespace(Trim(s)[0]) && !IsWhitespace(Trim(s)[|Trim(s)| - 1])
  {
    var t := TrimStart(s);
    TrimStartSpec(s);
    TrimEndSpec(t);
    assert t != [] ==> t[0] == s[|s| - |t|];
  }

  // ---------------------------------------------------------------------
  // decimal numbers

  predicate IsDigit(c: char)
  {
    '0' <= c <= '9'
  }

  function DigitChar(d: nat): (c: char)
    requires d < 10
    ensures IsDigit(c)
  {
    ('0' as int + d) as char
  }

  /**
   * `format!("{}", n)` for an unsigned integer: its decimal digits, with no
   * leading zero.
   */
  function NatToString(n: nat): (s: string)
    ensures |s| >= 1
    ensures forall i :: 0 <= i < |s| ==> IsDigit(s[i])
    ensures |s| > 1 ==> s[0] != '0'
    decreases n
  {
    if n < 10 then [DigitChar(n)] else NatToString(n / 10) + [DigitChar(n % 10)]
  }

  /** The number a string of decimal digits denotes. */
  function DigitsValue(s: string): nat
    requires forall i :: 0 <= i < |s| ==> IsDigit(s[i])
  {
    if s == [] then 0
    else
      var last := s[|s| - 1];
      assert IsDigit(last);
      10 * DigitsValue(s[..|s| - 1]) + (last as int - '0' as int)
  }

  /** The decimal text of a number reads back as that number. */
  lemma {:induction false} NatToStringValue(n: nat)
    ensures DigitsValue(NatToString(n)) == n
    decreases n
  {
    var s := NatToString(n);
    if n >= 10 {
      NatToStringValue(n / 10);
      assert s[..|s| - 1] == NatToString(n / 10);
    }
  }

  /** Distinct numbers have distinct decimal texts. */
  lemma NatToStringInjective(m: nat, n: nat)
    requires NatToString(m) == NatToString(n)
    ensures m == n
  {
    NatToStringValue(m);
    NatToStringValue(n);
  }

  // ---------------------------------------------------------------------
  // UTF-8 byte offsets

  /** Bytes that `c` takes in UTF-8. */
  function Utf8Width(c: char): nat
  {
    var n := c as int;
    if n < 0x80 then 1 else if n < 0x800 then 2 else if n < 0x10000 then 3 else 4
  }

  function Utf8Length(s: string): nat
  {
    if s == [] then 0 else Utf8Width(s[0]) + Utf8Length(s[1..])
  }

  /**
   * How many chars of `s` make up exactly its first `bytes` bytes, or None
   * when byte offset `bytes` is not a char boundary of `s` (a range index
   * `&s[..bytes]` panics then).
   */
  function CharsInBytePrefix(s: string, bytes: nat): (r: Option<nat>)
    ensures r.Some? ==> r.value <= |s| && Utf8Length(s[..r.value]) == bytes
    ensures r.None? ==> forall k :: 0 <= k <= |s| ==> Utf8Length(s[..k]) != bytes
    decreases |s|
  {
    if bytes == 0 then Some(0)
    else if s == [] then None
    else if Utf8Width(s[0]) > bytes then
      assert forall k :: 1 <= k <= |s| ==> s[..k][1..] == s[1..][..k - 1];
      None
    else
      assert forall k :: 1 <= k <= |s| ==> s[..k][1..] == s[1..][..k - 1];
      match CharsInBytePrefix(s[1..], bytes - Utf8Width(s[0]))
      case Some(k) => Some(k + 1)
      case None => None
  }

  /** A text shorter than `bytes` bytes has no char boundary there. */
  lemma {:induction false} ShortTextHasNoBoundary(s: string, bytes: nat)
    requires Utf8Length(s) < bytes
    ensures CharsInBytePrefix(s, bytes) == None
  {
    if CharsInBytePrefix(s, bytes).Some? {
      var k := CharsInBytePrefix(s, bytes).value;
      PrefixUtf8Length(s, k);
    }
  }

  lemma {:induction false} PrefixUtf8Length(s: string, k: nat)
    requires k <= |s|
    ensures Utf8Length(s[..k]) <= Utf8Length(s)
  {
    if k > 0 {
      assert s[..k][1..] == s[1..][..k - 1];
      PrefixUtf8Length(s[1..], k - 1);
    }
  }

  /** Over ASCII text the first n bytes are the first n chars. */
  lemma {:induction false} AsciiBytePrefix(s: string, n: nat)
    requires n <= |s|
    requires forall i :: 0 <= i < n ==> s[i] as int < 0x80
    ensures CharsInBytePrefix(s, n) == Some(n)
  {
    if n > 0 {
      AsciiBytePrefix(s[1..], n - 1);
    }
  }
}

=== FILE: wrappers.dfy ===
/** Failure-carrying values: Rust's `Option` and `anyhow::Result`. */
module Wrappers {

  datatype Option<+T> = None | Some(value: T)

  datatype Result<+T, +E> = Ok(value: T) | Err(error: E)
}
